=== FILE: README.md ===
# ThriftSchema codec model

This project is a Dafny model of `ThriftSchema` in `lib/thrift-schema.js`, the
schema-driven codec of the thrift-client repository, together with proofs of
its properties. The codec converts in both directions between:

- JavaScript host values: records, arrays, string-keyed objects and scalars;
- the tagged canonical tree a Thrift wire writer consumes: `{type, value}`,
  struct fields `{type, value, id}`, list payloads `{valueType, data}` and map
  payloads `{keyType, valueType, data}`.

The model has the same parts as the class:

- **Schema construction** (`Schema.Build`). It takes the IDL parser's tables as
  input. It fails when there is no service block, and otherwise merges every
  block's methods into one table, a later block overwriting an earlier one.
- **Type resolution** (`Resolve.ParseType`). It follows typedef aliases, turns
  enum names into `I32` and struct or exception names into `STRUCT`, and
  upper-cases bare names. A container reference keeps itself as `thriftType`
  and takes its plain kind from its `name`. The JavaScript loop over aliases
  never ends on a cycle; the model returns `CyclicTypedef` there instead.
  `ParseTypeFailsIffCyclic` proves this error is returned exactly when the
  source's loop would not terminate.
- **Encoder** (`Encoder.Encode`, `Encoder.EncodeStruct` and the item, entry and
  field walks). A scalar type passes the value through, tagged with its kind.
  A struct lists the fields present in the record, in schema order, with their
  ids. A list or map holds untagged payloads plus the resolved element, key
  and value kinds. A composite map key is JSON text and is parsed before it is
  encoded.
- **Decoder** (`Decoder.Decode` and its walks). It dispatches on the schema's
  types only and never reads the kinds stored in the tree. It indexes struct
  entries by id, the last entry with an id winning. It fails on a missing
  required field, naming it. It assigns map entries one after another, so a
  repeated key takes the last value, and it turns a composite key back into
  JSON text.

Host values are `Values.Host`. Objects are ordered property lists, because
JavaScript objects keep insertion order. Errors are the `Errors.Error`
datatype, returned through `Errors.Result`:

- the source's thrown errors: no service, unknown type, missing required
  field;
- the TypeErrors the source would hit on ill-shaped input: no field list, no
  element type, a non-array under LIST, a non-object under STRUCT or MAP;
- JSON that does not parse;
- a payload whose shape does not fit the schema type.

`JSON.parse` and `JSON.stringify` are an abstract pair of functions
(`Values.JsonCodec`).

The modules are:

| module | file |
|---|---|
| `Types` | types.dfy |
| `Errors` | errors.dfy |
| `Values` | values.dfy |
| `Schema` | schema.dfy |
| `Resolve` | resolve.dfy |
| `Canonical` | canonical.dfy |
| `Encoder` | encoder.dfy |
| `Decoder` | decoder.dfy |
| `StructProps` | struct_props.dfy |
| `ResolveProps` | resolve_props.dfy |
| `ContainerProps` | container_props.dfy |

Two reading notes on the code:

- The decoder reads the schema's element, key and value types (lines 96 and
  99) and never the kinds stored in the tree. `ListDecodeIgnoresStoredType`
  and `MapDecodeIgnoresStoredTypes` state this.
- A composite map key is a key type that resolves to STRUCT, or a container
  key type whose `name` is truthy, that is non-empty (line 57,
  `Resolve.CompositeKey`).

## Model

| member | source | states |
|---|---|---|
| Schema.Build | lib/thrift-schema.js:4-10 | Construction fails with ServiceNotFound exactly when the parser found no service; otherwise the type tables are carried over unchanged |
| Schema.MergeServices | lib/thrift-schema.js:8 | No contract of its own; Schema.MergeKeys and Schema.MergeLastWins state its meaning: exactly the declared method names, each from the last block declaring it |
| Schema.MergeKeys | lib/thrift-schema.js:8 | The merged service table holds exactly the method names that some block declares |
| Schema.MergeLastWins | lib/thrift-schema.js:8 | A merged method is the definition from the last block that declares that name |
| Schema.BuildMergesServices | lib/thrift-schema.js:7-9 | With a service present, construction succeeds and each method maps to the last declaring block's definition |
| Schema.BuildServiceKeys | lib/thrift-schema.js:7-9 | With a service present, a name is in the built table if and only if some block declares it |
| Resolve.Follow | lib/thrift-schema.js:13 | The alias walk stops only on a non-alias, and its only failure is a cyclic typedef |
| Resolve.Classify | lib/thrift-schema.js:14-18 | No contract of its own; ResolveProps.EnumResolvesToI32, EnumCapturedByStructNamedI32, StructResolvesToStruct, ScalarNameAnyCase and ContainerKindFromName state how it decides enum, struct, scalar and container kinds |
| Resolve.PlainName | lib/thrift-schema.js:18 | No contract of its own; ResolveProps.ContainerKindFromName states that a container's kind is LIST or MAP exactly when its upper-cased name is |
| Resolve.ParseType | lib/thrift-schema.js:11-20 | Resolution fails only on a cyclic typedef |
| Resolve.StepsSucc | lib/thrift-schema.js:13 | One more turn of the alias loop is one more Step after n turns |
| Resolve.StepsAdd | lib/thrift-schema.js:13 | a turns followed by b turns are a+b turns |
| Resolve.TerminalStays | lib/thrift-schema.js:13 | Once the loop reaches a non-alias, further turns leave the reference unchanged |
| Resolve.ReturnBeyond | lib/thrift-schema.js:13 | A chain that returns to a reference returns to it again past any bound |
| Resolve.RevisitNeverTerminates | lib/thrift-schema.js:13 | A chain that revisits an alias is an alias after every number of turns |
| Resolve.FollowFromPrefix | lib/thrift-schema.js:13 | A successful walk ends at some point of the chain; a failed one means the chain revisits an alias |
| Resolve.ParseTypeFailsIffCyclic | lib/thrift-schema.js:13 | Resolution fails if and only if the source's while loop never exits |
| Resolve.AliasChainResolves | lib/thrift-schema.js:13-19 | An alias chain of any length resolves exactly as its final target does |
| Canonical.Index | lib/thrift-schema.js:83-84 | Every position the id index stores is a valid entry of the payload |
| Canonical.IndexLastWins | lib/thrift-schema.js:84 | The index holds exactly the ids present, each bound to the last entry carrying it |
| Canonical.AsHost | lib/thrift-schema.js:81 | No contract of its own; ContainerProps.ScalarRoundTrip states that under a scalar type the decoder hands back the encoded value unchanged |
| Values.Get | lib/thrift-schema.js:23-24 | A name is found if and only if some property carries it |
| Values.PutGet | lib/thrift-schema.js:91 | An assigned property reads back its new value, and every other name reads as before |
| Values.PutKeys | lib/thrift-schema.js:106 | Assignment adds exactly the assigned name; a new name is appended at the end |
| Values.PutDistinct | lib/thrift-schema.js:106 | Assignment keeps property names distinct |
| Values.Put | lib/thrift-schema.js:106 | No contract of its own; Values.PutGet, PutKeys and PutDistinct state its meaning: the name reads back its new value, other names are unchanged, a new name is appended |
| Values.KeyText | lib/thrift-schema.js:106 | No contract of its own; ContainerProps.ScalarKeyMapRoundTrip states that a string key becomes the property name itself |
| Values.GetSmaller | lib/thrift-schema.js:24 | A property's value is smaller than the object holding it, which bounds the encoder's recursion |
| Values.ParseKey | lib/thrift-schema.js:57 | Parsing a key succeeds exactly when the JSON text parses, giving a value smaller than the text |
| Encoder.MapProps | lib/thrift-schema.js:54-55 | An object's own properties, none for a boolean or number, and an error otherwise; never larger than the value |
| Encoder.Encode | lib/thrift-schema.js:30-70 | A successful encode's tag is the kind the type resolves to |
| Encoder.EncodeStruct | lib/thrift-schema.js:21-29 | A struct payload has at most one entry per schema field |
| Encoder.EncodeFields | lib/thrift-schema.js:22-27 | The filtered field list is never longer than the schema's |
| Encoder.EncodeItems | lib/thrift-schema.js:48 | A list's data has one payload per item |
| Encoder.EncodeEntries | lib/thrift-schema.js:54-62 | A map's data has one pair per property |
| Encoder.MapKey | lib/thrift-schema.js:56-57 | The value a map key stands for is no larger than the key text |
| Encoder.EncodeProp | lib/thrift-schema.js:54-61 | No contract of its own; ContainerProps.EncodeEntriesSucceeds, EncodeEntriesSpec and CompositeKeyMustParse state when a property encodes and what pair it gives |
| Decoder.Decode | lib/thrift-schema.js:71-113 | Success needs a resolving type of a known kind; a LIST yields an array, a STRUCT or MAP an object |
| Decoder.DecodeFields | lib/thrift-schema.js:85-93 | A struct decodes to an object |
| Decoder.DecodeItems | lib/thrift-schema.js:97 | A list decodes to one item per payload |
| Decoder.DecodeEntries | lib/thrift-schema.js:100-108 | A map decodes to an object |
| Decoder.DecodePair | lib/thrift-schema.js:101-106 | No contract of its own; ContainerProps.PairRoundTrip and DecodeEntriesPutAll state that a pair decodes to the property it was encoded from, assigned in order |
| ResolveProps.EnumResolvesToI32 | lib/thrift-schema.js:14-19 | An enum name resolves to I32 |
| ResolveProps.EnumCapturedByStructNamedI32 | lib/thrift-schema.js:14-15 | Because of the order of the tests, a struct named I32 makes every enum resolve to STRUCT |
| ResolveProps.StructResolvesToStruct | lib/thrift-schema.js:15-19 | A struct or exception name resolves to STRUCT |
| ResolveProps.ScalarNameAnyCase | lib/thrift-schema.js:16-19 | A scalar name in any letter case resolves to its upper-case kind |
| ResolveProps.ContainerKindFromName | lib/thrift-schema.js:17-18 | A container reference keeps itself as thriftType, and its kind is LIST or MAP exactly when its upper-cased name is |
| ResolveProps.UnknownTypeRejected | lib/thrift-schema.js:30-113 | Any resolved name that is not one of the ten kinds is refused by both encode and decode with an unknown-type error |
| ResolveProps.SetTypeRejected | lib/thrift-schema.js:18-68 | A `set` reference resolves to the plain kind SET, which no case handles, so encode and decode both refuse it as an unknown type |
| ResolveProps.SameResolutionSameEncode | lib/thrift-schema.js:30-70 | Two references that resolve alike encode alike, except for STRUCT |
| ResolveProps.SameResolutionSameLeafEncode | lib/thrift-schema.js:31-40 | The same for a scalar or unknown kind |
| ResolveProps.SameResolutionSameListEncode | lib/thrift-schema.js:46-51 | The same for LIST |
| ResolveProps.SameResolutionSameMapEncode | lib/thrift-schema.js:52-66 | The same for MAP |
| ResolveProps.SameResolutionSameDecode | lib/thrift-schema.js:71-113 | Two references that resolve alike decode alike, except for STRUCT |
| ResolveProps.AliasChainCodec | lib/thrift-schema.js:13 | A value under an alias chain encodes and decodes as under the chain's final non-struct target |
| ResolveProps.EnumCodecIsI32 | lib/thrift-schema.js:14 | An enum-typed value encodes and decodes as an I32 one, passed through |
| ResolveProps.TypedefOfStructFails | lib/thrift-schema.js:43 | A typedef naming a struct finds no field list, because the lookup uses the alias, so encode and decode both fail |
| Schema.FieldListOf | lib/thrift-schema.js:43 | No contract of its own; ResolveProps.TypedefOfStructFails and NoFieldListFails state that the lookup uses the reference as written (also at line 87), so an alias of a struct finds no field list |
| ResolveProps.NoFieldListFails | lib/thrift-schema.js:41-44 | A type resolving to STRUCT without a field list of its own makes encode and decode both fail with MissingFieldList, whatever the value |
| ContainerProps.ScalarRoundTrip | lib/thrift-schema.js:33-40 | A scalar type tags the value with its kind and keeps it unchanged; decode hands the payload back, so the value round-trips |
| StructProps.PresentMembers | lib/thrift-schema.js:22-23 | The present fields are exactly the schema fields whose name is in the record |
| StructProps.EncodeFieldsSucceeds | lib/thrift-schema.js:21-28 | encodeStruct succeeds exactly when every present field's value encodes, so an absent field, required or not, never makes it fail |
| StructProps.EncodeFieldsSpec | lib/thrift-schema.js:22-27 | The output lists exactly the present fields in schema order; entry q is field q's value encoded and tagged with that field's id |
| StructProps.ExtraKeysIgnored | lib/thrift-schema.js:21-28 | Two records that agree on the schema's names encode to the same struct payload |
| StructProps.EncodeFieldsAgree | lib/thrift-schema.js:22-27 | The same, for the field walk |
| StructProps.NoFieldsPresentEncodesEmpty | lib/thrift-schema.js:22-28 | A record holding none of the schema's names, required ones included, encodes to no fields |
| StructProps.DecodeFieldsKeys | lib/thrift-schema.js:87-92 | A successful decode had an entry for every required field, and the result's names are exactly those of the fields with an entry, so an absent optional field is omitted |
| StructProps.DecodeFieldsValues | lib/thrift-schema.js:84-91 | A field with an entry holds the schema-typed decode of the last entry with its id; a field without one is untouched |
| StructProps.DecodeFieldsLastFieldWins | lib/thrift-schema.js:87-91 | With several fields of one name, the name holds the decoding of the last entry for the last of those fields, in schema order, that has an entry |
| StructProps.DecodeFieldsUntouched | lib/thrift-schema.js:87-92 | Fields with other names, or with the name but no entry, leave a name as it was |
| StructProps.RequiredFieldMissingNamed | lib/thrift-schema.js:90 | A required field with no entry fails the decode with an error naming it, once the earlier fields have gone through |
| StructProps.RestrictKeys | lib/thrift-schema.js:87-91 | The record restricted to the schema has exactly the record's names that the schema declares |
| StructProps.RestrictValues | lib/thrift-schema.js:87-91 | The restriction keeps the record's values |
| StructProps.DecodeIndexed | lib/thrift-schema.js:83-93 | A payload indexed as the decoder needs decodes to the record restricted to the schema |
| StructProps.EncodedIsIndexed | lib/thrift-schema.js:21-28 | With distinct field ids, the encoded payload gives every present field an entry that decodes back, and absent fields none |
| StructProps.PresentFieldIndexed | lib/thrift-schema.js:84 | The entry the decoder picks for a present field is the one encoded from it |
| StructProps.AbsentFieldNotIndexed | lib/thrift-schema.js:84 | An absent field's id has no entry |
| StructProps.StructRoundTrip | lib/thrift-schema.js:21-94 | A record holding every required field, whose values round-trip, decodes back to itself restricted to the schema's names, in schema order |
| ContainerProps.EncodeItemsSucceeds | lib/thrift-schema.js:48 | Encoding the items succeeds exactly when every item encodes |
| ContainerProps.EncodeItemsSpec | lib/thrift-schema.js:48 | Data item i is item i's encoded value with its tag dropped |
| ContainerProps.ListEncodeSucceeds | lib/thrift-schema.js:46-51 | A list encodes exactly when its element type resolves and every item encodes |
| ContainerProps.ListEncodeNoElementKindOf | lib/thrift-schema.js:49 | An element type that does not resolve fails every array under the list type |
| ContainerProps.ListEncodeSpec | lib/thrift-schema.js:46-51 | An encoded list has the input's length and order, and the element type's resolved kind as valueType |
| ContainerProps.DecodeItemsSucceeds | lib/thrift-schema.js:97 | Decoding a list's payloads succeeds exactly when every payload decodes under the schema's element type |
| ContainerProps.DecodeItemsSpec | lib/thrift-schema.js:97 | For any payload list, result item i is payload i decoded under the schema's element type |
| ContainerProps.ItemsRoundTrip | lib/thrift-schema.js:48-97 | Items that each round-trip come back in order |
| ContainerProps.ListRoundTrip | lib/thrift-schema.js:46-97 | A list whose items round-trip decodes to the same items in the same order |
| ContainerProps.EmptyListEncodesUnknownElement | lib/thrift-schema.js:46-51 | An element type of no known kind still lets an empty list encode, while a one-item list is refused |
| ContainerProps.EmptyListDecodesUnknownElement | lib/thrift-schema.js:95-97 | The same for decode |
| ContainerProps.ListWithoutElementType | lib/thrift-schema.js:46-51 | A list type with no element type encodes no array, yet decodes an empty payload |
| ContainerProps.ListWithoutElementTypeOf | lib/thrift-schema.js:46-51 | A LIST type with no element type fails every array with MissingElementType |
| ContainerProps.ListDecodeIgnoresStoredType | lib/thrift-schema.js:95-97 | Decoding a list does not depend on the stored valueType |
| ContainerProps.MapDecodeIgnoresStoredTypes | lib/thrift-schema.js:98-109 | Decoding a map does not depend on the stored keyType and valueType |
| ContainerProps.EncodeEntriesSucceeds | lib/thrift-schema.js:54-62 | Encoding a map's properties succeeds exactly when each one encodes |
| ContainerProps.EncodeEntriesSpec | lib/thrift-schema.js:54-62 | Pair i is property i's encoding |
| ContainerProps.MapEncodeSucceeds | lib/thrift-schema.js:52-66 | A map encodes exactly when key and value types resolve and every property encodes |
| ContainerProps.MapEncodeFailsOf | lib/thrift-schema.js:52-66 | Under a map type, an object whose properties do not all encode, or whose key or value type does not resolve, fails to encode |
| ContainerProps.MapEncodeSpec | lib/thrift-schema.js:52-66 | An encoded map has one pair per property in property order, with the resolved key and value kinds |
| ContainerProps.MapOfPrimitiveIsEmpty | lib/thrift-schema.js:54 | A boolean or number under a map type has no keys and encodes as an empty map |
| ContainerProps.PairRoundTrip | lib/thrift-schema.js:56-60 | A property whose key and value round-trip, with a composite key that re-stringifies to its text, decodes back from its pair |
| ContainerProps.DecodeEntriesAppends | lib/thrift-schema.js:100-108 | Pairs that decode to properties with new, distinct names append those properties in order |
| ContainerProps.DecodeEntriesPutAll | lib/thrift-schema.js:100-108 | A map payload decodes to the object built by assigning the decoded properties one after another |
| ContainerProps.PutAllUntouched | lib/thrift-schema.js:106 | A name no assigned property carries reads as before |
| ContainerProps.PutAllLastWins | lib/thrift-schema.js:106 | The last property assigned to a name gives its value |
| ContainerProps.MapDecodeLastWins | lib/thrift-schema.js:98-109 | With repeated keys, the decoded map gives each name the value of the last pair with that key |
| ContainerProps.EntriesRoundTrip | lib/thrift-schema.js:54-108 | Distinct properties that each round-trip decode back from their pairs, in order |
| ContainerProps.MapRoundTrip | lib/thrift-schema.js:52-109 | A map whose properties round-trip decodes to the same object |
| ContainerProps.ScalarKeyMapRoundTrip | lib/thrift-schema.js:52-109 | With a scalar key type, every key is encoded as the property name's string and the map round-trips when its values do |
| ContainerProps.CompositeKeyMustParse | lib/thrift-schema.js:57 | With a composite key type, a property name that is not JSON fails the encode |

## Left out

- The `thrift-parser` call (lines 1 and 5) is a foreign library. Its result is the input datatype `Schema.ParsedIdl`. The method signatures of service blocks are carried through unread.
- `JSON.parse` and `JSON.stringify` (lines 57 and 105) are foreign calls, modelled as an abstract pair of functions. The only assumption about them is that a parsed value is smaller than its text, which real JSON satisfies. Round trips with composite keys therefore assume, key by key, that stringifying the parsed key gives back the text (`PropRoundTrips`).
- Object keys are ordered by insertion. JavaScript's rule that integer-like keys come first in ascending order is left out.
- `in` and `obj[k]` look at own properties only. The prototype chain is left out.
- `String(key)` on a decoded plain key follows JavaScript for null, booleans, strings, arrays, objects and integers of magnitude below 10^21 that are exact doubles (at most 2^53). Numbers are integers only, so DOUBLE values are opaque and number-to-text rules for fractions are left out.
- Values.KeyText: writes every integer in plain decimal digits. JavaScript writes a magnitude of 10^21 or more in exponent notation (`String(1e21)` is `"1e+21"`), and it rounds an integer past 2^53 to the nearest double before printing it. Numbers are unbounded integers in this model, so neither rule applies.
- `toUpperCase` is modelled on ASCII letters only.
- Encode is not modelled on values the source would treat in JavaScript-specific ways. A string under MAP would expose its characters as keys through `Object.keys` (line 54); the model refuses it with `NotAnObject`. Under STRUCT the source's `in` (line 23) throws a TypeError on a string, a number, a boolean or null, which `NotAnObject` models. A non-array under LIST is refused with `NotAnArray`. Other crashes are explicit errors too: a missing field list, a container type without element types.
- Encoder.MapProps: refuses an array under MAP with `NotAnObject`, where `Object.keys` (line 54) would list its indices "0", "1", … as keys. An array used as a map is outside what the codec is meant for, and modelling index keys would tie the key text to number formatting.
- Encoder.EncodeStruct: refuses an array record under a non-empty field list with `NotAnObject`, where `name in params` (line 23) would find its indices and `length`. Only field names that are array indices or `length` could match, which no Thrift record relies on.
- Decode of a payload whose shape does not fit the schema type (for example a list payload under a struct type) is refused with `PayloadMismatch`. The source would read missing fields as undefined and then crash or return partial objects.
- A cyclic typedef chain makes the source loop forever. The model returns `CyclicTypedef` instead, and `Resolve.ParseTypeFailsIffCyclic` shows this happens exactly on those inputs.
- Error messages are not modelled as text. Each error is a datatype value carrying the type reference or field name the message would print.
- Wire encoding, transport and RPC are outside this class.
- ContainerProps.MapRoundTrip: requires distinct property names, as every real JavaScript object has; the source's objects cannot hold duplicates.
- StructProps.DecodeFieldsValues: requires distinct field names. The decoder also accepts a schema with two fields of one name (lines 87-91); `StructProps.DecodeFieldsLastFieldWins` states that case without the requirement: the last such field with an entry gives the value.
- StructProps.StructRoundTrip: requires distinct field ids in the schema, which the Thrift IDL demands. With duplicate ids the decoder would read one entry for two fields.

=== FILE: canonical.dfy ===
/** The canonical value tree the encoder builds and the decoder reads. A
    tagged value is `{type, value}`; inside lists and maps the payloads are
    untagged, and struct fields are `{type, value, id}`. */
module Canonical {
  import opened Types
  import opened Values

  datatype Tagged = Tagged(kind: Kind, value: Payload)

  /** An untagged payload. The element and key kinds a container records
      are the plain type texts the resolver produced. */
  datatype Payload =
    | Scalar(host: Host)
    | StructBody(fields: seq<FieldValue>)
    | ListBody(valueType: string, data: seq<Payload>)
    | MapBody(keyType: string, valueType: string, entries: seq<Pair>)

  datatype FieldValue = FieldValue(kind: Kind, value: Payload, id: int)

  datatype Pair = Pair(key: Payload, value: Payload)

  /** The decoder's `sMap`: every id of the struct payload, bound (by
      position) to the entry that the `forEach` writes last. */
  function Index(fvs: seq<FieldValue>): (m: map<int, nat>)
    ensures forall id :: id in m ==> m[id] < |fvs|
  {
    if |fvs| == 0 then map[]
    else Index(fvs[..|fvs| - 1])[fvs[|fvs| - 1].id := |fvs| - 1]
  }

  /** The entry at position `i` carries `id` and no later entry does. */
  ghost predicate LastWithId(fvs: seq<FieldValue>, id: int, i: int)
  {
    0 <= i < |fvs| && fvs[i].id == id && forall k :: i < k < |fvs| ==> fvs[k].id != id
  }

  /** Duplicate ids: the index holds every id present, and for each the
      last entry carrying it. */
  lemma {:induction false} IndexLastWins(fvs: seq<FieldValue>, id: int)
    ensures id in Index(fvs) <==> exists i :: 0 <= i < |fvs| && fvs[i].id == id
    ensures id in Index(fvs) ==> LastWithId(fvs, id, Index(fvs)[id])
  {
    if |fvs| > 0 {
      var init := fvs[..|fvs| - 1];
      IndexLastWins(init, id);
      if fvs[|fvs| - 1].id != id {
        if exists i :: 0 <= i < |fvs| && fvs[i].id == id {
          var i :| 0 <= i < |fvs| && fvs[i].id == id;
          assert init[i] == fvs[i];
        }
        if id in Index(init) {
          var i := Index(init)[id];
          assert init[i] == fvs[i];
          forall k | i < k < |fvs| ensures fvs[k].id != id {
            if k < |fvs| - 1 {
              assert init[k] == fvs[k];
            }
          }
        }
      }
    }
  }

  /** The JavaScript object a payload is: what the decoder hands back when
      the schema says scalar, whatever the payload holds. */
  function AsHost(p: Payload): Host
  {
    match p
    case Scalar(h) => h
    case StructBody(fs) => Obj([Prop("fields", Arr(FieldsAsHost(fs)))])
    case ListBody(vt, data) =>
      Obj([Prop("valueType", Str(vt)), Prop("data", Arr(PayloadsAsHost(data)))])
    case MapBody(kt, vt, data) =>
      Obj([Prop("keyType", Str(kt)), Prop("valueType", Str(vt)), Prop("data", Arr(PairsAsHost(data)))])
  }

  function FieldsAsHost(fs: seq<FieldValue>): seq<Host>
  {
    if |fs| == 0 then [] else [FieldAsHost(fs[0])] + FieldsAsHost(fs[1..])
  }

  function FieldAsHost(f: FieldValue): Host
  {
    Obj([Prop("type", Str(KindName(f.kind))), Prop("value", AsHost(f.value)), Prop("id", Num(f.id))])
  }

  function PayloadsAsHost(data: seq<Payload>): seq<Host>
  {
    if |data| == 0 then [] else [AsHost(data[0])] + PayloadsAsHost(data[1..])
  }

  function PairsAsHost(data: seq<Pair>): seq<Host>
  {
    if |data| == 0 then [] else [PairAsHost(data[0])] + PairsAsHost(data[1..])
  }

  function PairAsHost(e: Pair): Host
  {
    Obj([Prop("key", AsHost(e.key)), Prop("value", AsHost(e.value))])
  }
}

=== FILE: container_props.dfy ===
/** What the scalar, LIST and MAP cases of both directions promise, and the
    container round trips. */
module ContainerProps {
  import opened Types
  import opened Errors
  import opened Values
  import opened Schema
  import opened Resolve
  import opened Canonical
  import opened Encoder
  import opened Decoder
  import opened StructProps

  /** `t` resolves to a known kind `k`. */
  predicate ResolvesTo(s: Schema, t: TypeRef, k: Kind)
  {
    ParseType(s, t).Success? && KindOf(ParseType(s, t).value.plain) == Some(k)
  }

  // ---------------------------------------------------------------------
  // Scalars

  /** A scalar type tags the value with its kind and keeps the value as it
      is; decoding under a scalar type hands the payload back as the object
      it is, so a scalar value comes back unchanged. */
  lemma ScalarRoundTrip(s: Schema, j: JsonCodec, h: Host, t: TypeRef, k: Kind)
    requires ResolvesTo(s, t, k) && IsScalar(k)
    ensures Encode(s, j, h, t) == Success(Tagged(k, Scalar(h)))
    ensures forall p :: Decode(s, j, p, t) == Success(AsHost(p))
    ensures RoundTrips(s, j, h, t)
  {
  }

  // ---------------------------------------------------------------------
  // Lists

  /** `t` is a list type whose element type is `et`. */
  predicate IsListType(s: Schema, t: TypeRef, et: TypeRef)
  {
    ResolvesTo(s, t, LIST) && ValueTypeOf(ParseType(s, t).value.thriftType) == Some(et)
  }

  /** Encoding the items succeeds exactly when every item encodes ... */
  lemma {:induction false} EncodeItemsSucceeds(s: Schema, j: JsonCodec, items: seq<Host>, et: TypeRef)
    ensures EncodeItems(s, j, items, et).Success? <==>
      forall i :: 0 <= i < |items| ==> Encode(s, j, items[i], et).Success?
  {
    if |items| > 0 {
      EncodeItemsSucceeds(s, j, items[1..], et);
      forall i | 1 <= i < |items| ensures items[1..][i - 1] == items[i] { }
    }
  }

  /** ... and then gives each item's payload in the item's place. */
  lemma {:induction false} EncodeItemsSpec(s: Schema, j: JsonCodec, items: seq<Host>, et: TypeRef)
    requires EncodeItems(s, j, items, et).Success?
    ensures forall i :: 0 <= i < |items| ==>
      Encode(s, j, items[i], et).Success? && EncodeItems(s, j, items, et).value[i] == Encode(s, j, items[i], et).value.value
  {
    if |items| > 0 {
      EncodeItemsSpec(s, j, items[1..], et);
      var r := EncodeItems(s, j, items, et).value;
      var rest := EncodeItems(s, j, items[1..], et).value;
      assert r[1..] == rest;
      forall i | 1 <= i < |items| ensures items[1..][i - 1] == items[i] && r[i] == rest[i - 1] { }
    }
  }

  /** A list encodes exactly when its element type resolves and every item
      encodes. */
  lemma ListEncodeSucceeds(s: Schema, j: JsonCodec, t: TypeRef, et: TypeRef, items: seq<Host>)
    requires IsListType(s, t, et)
    ensures Encode(s, j, Arr(items), t).Success? <==>
      ParseType(s, et).Success? && forall i :: 0 <= i < |items| ==> Encode(s, j, items[i], et).Success?
  {
    EncodeItemsSucceeds(s, j, items, et);
    if EncodeItems(s, j, items, et).Failure? {
      ListEncodeFailsOf(s, j, t, et, Arr(items));
    } else if ParseType(s, et).Success? {
      EncodeListCaseOf(s, j, t, et, Arr(items));
    } else {
      ListEncodeNoElementKindOf(s, j, t, et, Arr(items));
    }
  }

  lemma ListEncodeNoElementKindOf(s: Schema, j: JsonCodec, t: TypeRef, et: TypeRef, h: Host)
    requires IsListType(s, t, et) && h.Arr? && ParseType(s, et).Failure?
    ensures Encode(s, j, h, t).Failure?
  {
  }

  /** The encoded list holds one payload per item, in order, under the
      element type's resolved name. */
  ghost predicate ListPayloadOf(s: Schema, j: JsonCodec, et: TypeRef, items: seq<Host>, r: Tagged)
  {
    && ParseType(s, et).Success?
    && r.kind == LIST && r.value.ListBody?
    && r.value.valueType == ParseType(s, et).value.plain
    && |r.value.data| == |items|
    && forall i :: 0 <= i < |items| ==>
         Encode(s, j, items[i], et).Success? && r.value.data[i] == Encode(s, j, items[i], et).value.value
  }

  lemma ListEncodeSpec(s: Schema, j: JsonCodec, t: TypeRef, et: TypeRef, items: seq<Host>)
    requires IsListType(s, t, et) && Encode(s, j, Arr(items), t).Success?
    ensures ListPayloadOf(s, j, et, items, Encode(s, j, Arr(items), t).value)
  {
    ListEncodeSucceeds(s, j, t, et, items);
    EncodeItemsSucceeds(s, j, items, et);
    EncodeItemsSpec(s, j, items, et);
    EncodeListCaseOf(s, j, t, et, Arr(items));
  }

  /** One more item in front: its payload goes in front. */
  lemma EncodeItemsCons(s: Schema, j: JsonCodec, h: Host, rest: seq<Host>, et: TypeRef)
    requires Encode(s, j, h, et).Success? && EncodeItems(s, j, rest, et).Success?
    ensures EncodeItems(s, j, [h] + rest, et) == Success([Encode(s, j, h, et).value.value] + EncodeItems(s, j, rest, et).value)
  {
    assert ([h] + rest)[1..] == rest;
  }

  lemma DecodeItemsCons(s: Schema, j: JsonCodec, p: Payload, rest: seq<Payload>, et: TypeRef)
    requires Decode(s, j, p, et).Success? && DecodeItems(s, j, rest, et).Success?
    ensures DecodeItems(s, j, [p] + rest, et) == Success([Decode(s, j, p, et).value] + DecodeItems(s, j, rest, et).value)
  {
    assert ([p] + rest)[1..] == rest;
  }

  /** Decoding a list's payloads succeeds exactly when every payload
      decodes under the element type ... */
  lemma {:induction false} DecodeItemsSucceeds(s: Schema, j: JsonCodec, data: seq<Payload>, et: TypeRef)
    ensures DecodeItems(s, j, data, et).Success? <==>
      forall i :: 0 <= i < |data| ==> Decode(s, j, data[i], et).Success?
  {
    if |data| > 0 {
      DecodeItemsSucceeds(s, j, data[1..], et);
      forall i | 1 <= i < |data| ensures data[1..][i - 1] == data[i] { }
    }
  }

  /** ... and then gives each payload's value in the payload's place. */
  lemma {:induction false} DecodeItemsSpec(s: Schema, j: JsonCodec, data: seq<Payload>, et: TypeRef)
    requires DecodeItems(s, j, data, et).Success?
    ensures forall i :: 0 <= i < |data| ==>
      Decode(s, j, data[i], et).Success? && DecodeItems(s, j, data, et).value[i] == Decode(s, j, data[i], et).value
  {
    if |data| > 0 {
      DecodeItemsSpec(s, j, data[1..], et);
      var r := DecodeItems(s, j, data, et).value;
      var rest := DecodeItems(s, j, data[1..], et).value;
      assert r[1..] == rest;
      forall i | 1 <= i < |data| ensures data[1..][i - 1] == data[i] && r[i] == rest[i - 1] { }
    }
  }

  /** Element-wise round trip. */
  lemma {:induction false} ItemsRoundTrip(s: Schema, j: JsonCodec, items: seq<Host>, et: TypeRef)
    requires forall i {:trigger RoundTrips(s, j, items[i], et)} :: 0 <= i < |items| ==> RoundTrips(s, j, items[i], et)
    ensures EncodeItems(s, j, items, et).Success?
    ensures DecodeItems(s, j, EncodeItems(s, j, items, et).value, et) == Success(items)
  {
    if |items| > 0 {
      var h := items[0];
      var rest := items[1..];
      assert RoundTrips(s, j, h, et);
      forall i | 0 <= i < |rest| ensures RoundTrips(s, j, rest[i], et) {
        assert rest[i] == items[i + 1];
      }
      ItemsRoundTrip(s, j, rest, et);
      assert items == [h] + rest;
      EncodeItemsCons(s, j, h, rest, et);
      DecodeItemsCons(s, j, Encode(s, j, h, et).value.value, EncodeItems(s, j, rest, et).value, et);
    }
  }

  /** The list case of each direction once the types are known. */
  /** The same for any array host value. */
  lemma EncodeListCaseOf(s: Schema, j: JsonCodec, t: TypeRef, et: TypeRef, h: Host)
    requires IsListType(s, t, et) && h.Arr? && ParseType(s, et).Success? && EncodeItems(s, j, h.items, et).Success?
    ensures Encode(s, j, h, t) ==
      Success(Tagged(LIST, ListBody(ParseType(s, et).value.plain, EncodeItems(s, j, h.items, et).value)))
  {
  }

  lemma DecodeListCase(s: Schema, j: JsonCodec, t: TypeRef, et: TypeRef, vt: string, data: seq<Payload>)
    requires IsListType(s, t, et) && DecodeItems(s, j, data, et).Success?
    ensures Decode(s, j, ListBody(vt, data), t) == Success(Arr(DecodeItems(s, j, data, et).value))
  {
    DecodeListIs(s, j, t, ListBody(vt, data));
  }

  /** What the LIST case of the decoder does with a list payload's data,
      whatever element type the payload records. */
  function DecodeListData(s: Schema, j: JsonCodec, t: TypeRef, data: seq<Payload>): Result<Host>
    requires ResolvesTo(s, t, LIST)
  {
    match ValueTypeOf(ParseType(s, t).value.thriftType)
    case Some(et) =>
      var items :- DecodeItems(s, j, data, et);
      Success(Arr(items))
    case None => if |data| == 0 then Success(Arr([])) else Failure(MissingElementType(t))
  }

  lemma DecodeListIs(s: Schema, j: JsonCodec, t: TypeRef, p: Payload)
    requires ResolvesTo(s, t, LIST) && p.ListBody?
    ensures Decode(s, j, p, t) == DecodeListData(s, j, t, p.data)
  {
  }

  /** List round trip: the array comes back item for item. */
  lemma ListRoundTrip(s: Schema, j: JsonCodec, t: TypeRef, et: TypeRef, items: seq<Host>)
    requires IsListType(s, t, et) && ParseType(s, et).Success?
    requires forall i {:trigger RoundTrips(s, j, items[i], et)} :: 0 <= i < |items| ==> RoundTrips(s, j, items[i], et)
    ensures RoundTrips(s, j, Arr(items), t)
  {
    ItemsRoundTrip(s, j, items, et);
    EncodeListCaseOf(s, j, t, et, Arr(items));
    var data := EncodeItems(s, j, items, et).value;
    DecodeListCase(s, j, t, et, ParseType(s, et).value.plain, data);
  }

  /** The element type is looked at only through the items: an empty list
      encodes under an element type of no known kind, while a one-item
      list is refused. */
  lemma EmptyListEncodesUnknownElement(s: Schema, j: JsonCodec, t: TypeRef, et: TypeRef)
    requires IsListType(s, t, et) && ParseType(s, et).Success? && KindOf(ParseType(s, et).value.plain).None?
    ensures Encode(s, j, Arr([]), t) == Success(Tagged(LIST, ListBody(ParseType(s, et).value.plain, [])))
    ensures forall h :: Encode(s, j, Arr([h]), t) == Failure(UnknownType(et))
  {
    EncodeListCaseOf(s, j, t, et, Arr([]));
    forall h ensures Encode(s, j, Arr([h]), t) == Failure(UnknownType(et)) {
      assert EncodeItems(s, j, [h], et) == Failure(UnknownType(et));
      ListEncodeFailsOf(s, j, t, et, Arr([h]));
    }
  }

  lemma ListEncodeFailsOf(s: Schema, j: JsonCodec, t: TypeRef, et: TypeRef, h: Host)
    requires IsListType(s, t, et) && h.Arr? && EncodeItems(s, j, h.items, et).Failure?
    ensures Encode(s, j, h, t) == Failure(EncodeItems(s, j, h.items, et).error)
  {
  }

  /** ... and likewise an empty payload decodes, a one-item one does not. */
  lemma EmptyListDecodesUnknownElement(s: Schema, j: JsonCodec, t: TypeRef, et: TypeRef, vt: string)
    requires IsListType(s, t, et) && ParseType(s, et).Success? && KindOf(ParseType(s, et).value.plain).None?
    ensures Decode(s, j, ListBody(vt, []), t) == Success(Arr([]))
    ensures forall p :: Decode(s, j, ListBody(vt, [p]), t) == Failure(UnknownType(et))
  {
    DecodeListCase(s, j, t, et, vt, []);
    forall p ensures Decode(s, j, ListBody(vt, [p]), t) == Failure(UnknownType(et)) {
      assert DecodeItems(s, j, [p], et) == Failure(UnknownType(et));
      ListDecodeFails(s, j, t, et, vt, [p]);
    }
  }

  lemma ListDecodeFails(s: Schema, j: JsonCodec, t: TypeRef, et: TypeRef, vt: string, data: seq<Payload>)
    requires IsListType(s, t, et) && DecodeItems(s, j, data, et).Failure?
    ensures Decode(s, j, ListBody(vt, data), t) == Failure(DecodeItems(s, j, data, et).error)
  {
    DecodeListIs(s, j, t, ListBody(vt, data));
  }

  /** A list type with no element type (a bare `list` name) cannot encode
      any array, yet decodes an empty payload. */
  lemma ListWithoutElementType(s: Schema, j: JsonCodec, t: TypeRef, items: seq<Host>, vt: string, data: seq<Payload>)
    requires ResolvesTo(s, t, LIST) && ValueTypeOf(ParseType(s, t).value.thriftType).None?
    ensures Encode(s, j, Arr(items), t) == Failure(MissingElementType(t))
    ensures Decode(s, j, ListBody(vt, data), t) == if |data| == 0 then Success(Arr([])) else Failure(MissingElementType(t))
  {
    ListWithoutElementTypeOf(s, j, t, Arr(items));
    DecodeListIs(s, j, t, ListBody(vt, data));
  }

  lemma ListWithoutElementTypeOf(s: Schema, j: JsonCodec, t: TypeRef, h: Host)
    requires ResolvesTo(s, t, LIST) && ValueTypeOf(ParseType(s, t).value.thriftType).None? && h.Arr?
    ensures Encode(s, j, h, t) == Failure(MissingElementType(t))
  {
  }

  /** The decoder goes by the schema alone: the element type name stored
      in a list payload is never read. */
  lemma ListDecodeIgnoresStoredType(s: Schema, j: JsonCodec, t: TypeRef, a: string, b: string, data: seq<Payload>)
    requires ResolvesTo(s, t, LIST)
    ensures Decode(s, j, ListBody(a, data), t) == Decode(s, j, ListBody(b, data), t)
  {
    DecodeListIs(s, j, t, ListBody(a, data));
    DecodeListIs(s, j, t, ListBody(b, data));
  }

  /** ... nor are the key and value type names stored in a map payload. */
  lemma MapDecodeIgnoresStoredTypes(s: Schema, j: JsonCodec, t: TypeRef, a: string, b: string, c: string, d: string, entries: seq<Pair>)
    requires ResolvesTo(s, t, MAP)
    ensures Decode(s, j, MapBody(a, c, entries), t) == Decode(s, j, MapBody(b, d, entries), t)
  {
  }

  // ---------------------------------------------------------------------
  // Maps

  /** `t` is a map type with key type `kt` and value type `vt`. */
  predicate IsMapType(s: Schema, t: TypeRef, kt: TypeRef, vt: TypeRef)
  {
    && ResolvesTo(s, t, MAP)
    && ParseType(s, t).value.thriftType.MapOf?
    && ParseType(s, t).value.thriftType.keyType == kt
    && ParseType(s, t).value.thriftType.valueType == vt
  }

  /** One property encodes when the key type resolves, its name yields a
      key and key and value both encode. A plain key is the name itself as
      a string; a composite key is the parsed JSON text, and text that does
      not parse fails the property. */
  lemma EncodePropSpec(s: Schema, j: JsonCodec, p: Prop, kt: TypeRef, vt: TypeRef)
    ensures EncodeProp(s, j, p, kt, vt).Success? <==>
      && ParseType(s, kt).Success?
      && MapKey(j, ParseType(s, kt).value, kt, p.key).Success?
      && Encode(s, j, MapKey(j, ParseType(s, kt).value, kt, p.key).value, kt).Success?
      && Encode(s, j, p.val, vt).Success?
    ensures EncodeProp(s, j, p, kt, vt).Success? ==>
      && EncodeProp(s, j, p, kt, vt).value.key == Encode(s, j, MapKey(j, ParseType(s, kt).value, kt, p.key).value, kt).value.value
      && EncodeProp(s, j, p, kt, vt).value.value == Encode(s, j, p.val, vt).value.value
    ensures ParseType(s, kt).Success? && !CompositeKey(ParseType(s, kt).value, kt) ==>
      MapKey(j, ParseType(s, kt).value, kt, p.key) == Success(Str(p.key))
    ensures ParseType(s, kt).Success? && CompositeKey(ParseType(s, kt).value, kt) && j.parse(p.key).None? ==>
      EncodeProp(s, j, p, kt, vt) == Failure(InvalidJson(p.key))
  {
  }

  /** Encoding a map's properties succeeds exactly when each property
      encodes. */
  lemma {:induction false} EncodeEntriesSucceeds(s: Schema, j: JsonCodec, ps: seq<Prop>, kt: TypeRef, vt: TypeRef)
    ensures EncodeEntries(s, j, ps, kt, vt).Success? <==>
      forall i :: 0 <= i < |ps| ==> EncodeProp(s, j, ps[i], kt, vt).Success?
  {
    if |ps| > 0 {
      EncodeEntriesSucceeds(s, j, ps[1..], kt, vt);
      forall i | 1 <= i < |ps| ensures ps[1..][i - 1] == ps[i] { }
    }
  }

  /** ... and then gives one pair per property, in property order. */
  lemma {:induction false} EncodeEntriesSpec(s: Schema, j: JsonCodec, ps: seq<Prop>, kt: TypeRef, vt: TypeRef)
    requires EncodeEntries(s, j, ps, kt, vt).Success?
    ensures forall i :: 0 <= i < |ps| ==>
      EncodeProp(s, j, ps[i], kt, vt).Success? && EncodeEntries(s, j, ps, kt, vt).value[i] == EncodeProp(s, j, ps[i], kt, vt).value
  {
    if |ps| > 0 {
      EncodeEntriesSpec(s, j, ps[1..], kt, vt);
      var r := EncodeEntries(s, j, ps, kt, vt).value;
      var rest := EncodeEntries(s, j, ps[1..], kt, vt).value;
      assert r[1..] == rest;
      forall i | 1 <= i < |ps| ensures ps[1..][i - 1] == ps[i] && r[i] == rest[i - 1] { }
    }
  }

  /** A map encodes exactly when both its types resolve and every property
      encodes. */
  lemma MapEncodeSucceeds(s: Schema, j: JsonCodec, t: TypeRef, kt: TypeRef, vt: TypeRef, ps: seq<Prop>)
    requires IsMapType(s, t, kt, vt)
    ensures Encode(s, j, Obj(ps), t).Success? <==>
      && ParseType(s, kt).Success? && ParseType(s, vt).Success?
      && forall i :: 0 <= i < |ps| ==> EncodeProp(s, j, ps[i], kt, vt).Success?
  {
    EncodeEntriesSucceeds(s, j, ps, kt, vt);
    var ee := EncodeEntries(s, j, ps, kt, vt);
    if ee.Success? && ParseType(s, kt).Success? && ParseType(s, vt).Success? {
      EncodeMapCaseOf(s, j, t, kt, vt, Obj(ps), ps, ParseType(s, kt).value, ParseType(s, vt).value, ee.value);
    } else {
      MapEncodeFailsOf(s, j, t, kt, vt, Obj(ps), ps);
    }
  }

  /** A map whose entries or types do not all succeed fails. */
  lemma MapEncodeFailsOf(s: Schema, j: JsonCodec, t: TypeRef, kt: TypeRef, vt: TypeRef, h: Host, ps: seq<Prop>)
    requires IsMapType(s, t, kt, vt) && MapProps(h) == Success(ps)
    requires !(EncodeEntries(s, j, ps, kt, vt).Success? && ParseType(s, kt).Success? && ParseType(s, vt).Success?)
    ensures Encode(s, j, h, t).Failure?
  {
  }

  /** The encoded map holds one pair per property, in property order,
      tagged with the resolved key and value type names. */
  ghost predicate MapPayloadOf(s: Schema, j: JsonCodec, kt: TypeRef, vt: TypeRef, ps: seq<Prop>, r: Tagged)
  {
    && ParseType(s, kt).Success? && ParseType(s, vt).Success?
    && r.kind == MAP && r.value.MapBody?
    && r.value.keyType == ParseType(s, kt).value.plain
    && r.value.valueType == ParseType(s, vt).value.plain
    && |r.value.entries| == |ps|
    && forall i :: 0 <= i < |ps| ==>
         EncodeProp(s, j, ps[i], kt, vt).Success? && r.value.entries[i] == EncodeProp(s, j, ps[i], kt, vt).value
  }

  lemma MapEncodeSpec(s: Schema, j: JsonCodec, t: TypeRef, kt: TypeRef, vt: TypeRef, ps: seq<Prop>)
    requires IsMapType(s, t, kt, vt) && Encode(s, j, Obj(ps), t).Success?
    ensures MapPayloadOf(s, j, kt, vt, ps, Encode(s, j, Obj(ps), t).value)
  {
    MapEncodeSucceeds(s, j, t, kt, vt, ps);
    EncodeEntriesSucceeds(s, j, ps, kt, vt);
    EncodeEntriesSpec(s, j, ps, kt, vt);
    EncodeMapCaseOf(s, j, t, kt, vt, Obj(ps), ps, ParseType(s, kt).value, ParseType(s, vt).value, EncodeEntries(s, j, ps, kt, vt).value);
  }

  /** Under a map type a boolean or a number has no own properties and
      encodes as the empty map. */
  lemma MapOfPrimitiveIsEmpty(s: Schema, j: JsonCodec, t: TypeRef, kt: TypeRef, vt: TypeRef, h: Host)
    requires IsMapType(s, t, kt, vt) && ParseType(s, kt).Success? && ParseType(s, vt).Success?
    requires h.Bool? || h.Num?
    ensures Encode(s, j, h, t) ==
      Success(Tagged(MAP, MapBody(ParseType(s, kt).value.plain, ParseType(s, vt).value.plain, [])))
  {
  }

  /** One property survives the round trip: the key it stands for and its
      value both round-trip, and a composite key's JSON text is what
      stringifying the key gives back. */
  ghost predicate PropRoundTrips(s: Schema, j: JsonCodec, kt: TypeRef, vt: TypeRef, p: Prop)
  {
    && ParseType(s, kt).Success?
    && MapKey(j, ParseType(s, kt).value, kt, p.key).Success?
    && RoundTrips(s, j, MapKey(j, ParseType(s, kt).value, kt, p.key).value, kt)
    && RoundTrips(s, j, p.val, vt)
    && (CompositeKey(ParseType(s, kt).value, kt) ==>
          j.stringify(MapKey(j, ParseType(s, kt).value, kt, p.key).value) == p.key)
  }

  /** The pair a property encodes to decodes to that property. */
  lemma PairRoundTrip(s: Schema, j: JsonCodec, kt: TypeRef, vt: TypeRef, p: Prop)
    requires PropRoundTrips(s, j, kt, vt, p)
    ensures EncodeProp(s, j, p, kt, vt).Success?
    ensures DecodePair(s, j, EncodeProp(s, j, p, kt, vt).value, kt, vt) == Success(p)
  {
    var kr := ParseType(s, kt).value;
    var key := MapKey(j, kr, kt, p.key).value;
    var ke := Encode(s, j, key, kt).value;
    var ve := Encode(s, j, p.val, vt).value;
    assert EncodeProp(s, j, p, kt, vt) == Success(Pair(ke.value, ve.value));
    assert Decode(s, j, ke.value, kt) == Success(key);
    assert Decode(s, j, ve.value, vt) == Success(p.val);
  }

  lemma DecodeEntriesStep(s: Schema, j: JsonCodec, es: seq<Pair>, kt: TypeRef, vt: TypeRef, acc: seq<Prop>, p: Prop)
    requires |es| > 0 && DecodePair(s, j, es[0], kt, vt) == Success(p)
    ensures DecodeEntries(s, j, es, kt, vt, acc) == DecodeEntries(s, j, es[1..], kt, vt, Put(acc, p.key, p.val))
  {
  }

  /** Pair `i` decodes to property `i`, for every `i`. */
  ghost predicate PairsDecodeTo(s: Schema, j: JsonCodec, es: seq<Pair>, ps: seq<Prop>, kt: TypeRef, vt: TypeRef)
  {
    |es| == |ps| && forall i {:trigger DecodePair(s, j, es[i], kt, vt)} :: 0 <= i < |es| ==> DecodePair(s, j, es[i], kt, vt) == Success(ps[i])
  }

  lemma PairsDecodeToTail(s: Schema, j: JsonCodec, es: seq<Pair>, ps: seq<Prop>, kt: TypeRef, vt: TypeRef)
    requires PairsDecodeTo(s, j, es, ps, kt, vt) && |es| > 0
    ensures DecodePair(s, j, es[0], kt, vt) == Success(ps[0])
    ensures PairsDecodeTo(s, j, es[1..], ps[1..], kt, vt)
  {
    forall i | 0 <= i < |es[1..]| ensures DecodePair(s, j, es[1..][i], kt, vt) == Success(ps[1..][i]) {
      assert es[1..][i] == es[i + 1] && ps[1..][i] == ps[i + 1];
      assert DecodePair(s, j, es[i + 1], kt, vt) == Success(ps[i + 1]);
    }
  }

  /** Decoding pairs that each decode to a property, onto an object with
      none of their keys, appends the properties in order. */
  lemma {:induction false} DecodeEntriesAppends(s: Schema, j: JsonCodec, es: seq<Pair>, ps: seq<Prop>, kt: TypeRef, vt: TypeRef, acc: seq<Prop>)
    requires PairsDecodeTo(s, j, es, ps, kt, vt) && DistinctKeys(acc + ps)
    ensures DecodeEntries(s, j, es, kt, vt, acc) == Success(Obj(acc + ps))
    decreases |es|
  {
    if |es| == 0 {
      assert acc + ps == acc;
    } else {
      PairsDecodeToTail(s, j, es, ps, kt, vt);
      var p := ps[0];
      assert p.key !in Keys(acc) by {
        forall i | 0 <= i < |acc| ensures acc[i].key != p.key {
          assert (acc + ps)[i] == acc[i] && (acc + ps)[|acc|] == p;
        }
      }
      PutKeys(acc, p.key, p.val);
      assert (acc + [p]) + ps[1..] == acc + ps;
      DecodeEntriesStep(s, j, es, kt, vt, acc, ps[0]);
      DecodeEntriesAppends(s, j, es[1..], ps[1..], kt, vt, acc + [ps[0]]);
    }
  }

  /** The object the decoder's `forEach` builds from properties decoded in
      order: each is assigned in turn. */
  function PutAll(acc: seq<Prop>, qs: seq<Prop>): seq<Prop>
    decreases |qs|
  {
    if |qs| == 0 then acc else PutAll(Put(acc, qs[0].key, qs[0].val), qs[1..])
  }

  lemma {:induction false} DecodeEntriesPutAll(s: Schema, j: JsonCodec, es: seq<Pair>, qs: seq<Prop>, kt: TypeRef, vt: TypeRef, acc: seq<Prop>)
    requires PairsDecodeTo(s, j, es, qs, kt, vt)
    ensures DecodeEntries(s, j, es, kt, vt, acc) == Success(Obj(PutAll(acc, qs)))
    decreases |es|
  {
    if |es| > 0 {
      PairsDecodeToTail(s, j, es, qs, kt, vt);
      DecodeEntriesStep(s, j, es, kt, vt, acc, qs[0]);
      DecodeEntriesPutAll(s, j, es[1..], qs[1..], kt, vt, Put(acc, qs[0].key, qs[0].val));
    }
  }

  /** A key none of the assigned properties carries reads as before. */
  lemma {:induction false} PutAllUntouched(acc: seq<Prop>, qs: seq<Prop>, k: string)
    requires forall m :: 0 <= m < |qs| ==> qs[m].key != k
    ensures Get(PutAll(acc, qs), k) == Get(acc, k)
    decreases |qs|
  {
    if |qs| > 0 {
      PutGet(acc, qs[0].key, qs[0].val);
      forall m | 0 <= m < |qs[1..]| ensures qs[1..][m].key != k {
        assert qs[1..][m] == qs[m + 1];
      }
      PutAllUntouched(Put(acc, qs[0].key, qs[0].val), qs[1..], k);
    }
  }

  /** The last property carrying a key gives that key its value. */
  lemma {:induction false} PutAllLastWins(acc: seq<Prop>, qs: seq<Prop>, k: string, i: int)
    requires 0 <= i < |qs| && qs[i].key == k
    requires forall m :: i < m < |qs| ==> qs[m].key != k
    ensures Get(PutAll(acc, qs), k) == Some(qs[i].val)
    decreases |qs|
  {
    var acc' := Put(acc, qs[0].key, qs[0].val);
    if i == 0 {
      PutGet(acc, k, qs[0].val);
      forall m | 0 <= m < |qs[1..]| ensures qs[1..][m].key != k {
        assert qs[1..][m] == qs[m + 1];
      }
      PutAllUntouched(acc', qs[1..], k);
    } else {
      forall m | i - 1 < m < |qs[1..]| ensures qs[1..][m].key != k {
        assert qs[1..][m] == qs[m + 1];
      }
      PutAllLastWins(acc', qs[1..], k, i - 1);
    }
  }

  /** Map decode with repeated keys: the value of the last pair whose key
      decodes to a name is the value that name gets. */
  lemma MapDecodeLastWins(s: Schema, j: JsonCodec, t: TypeRef, kt: TypeRef, vt: TypeRef, a: string, b: string, es: seq<Pair>, qs: seq<Prop>, k: string, i: int)
    requires IsMapType(s, t, kt, vt) && PairsDecodeTo(s, j, es, qs, kt, vt)
    requires 0 <= i < |qs| && qs[i].key == k
    requires forall m :: i < m < |qs| ==> qs[m].key != k
    ensures Decode(s, j, MapBody(a, b, es), t).Success?
    ensures Decode(s, j, MapBody(a, b, es), t).value.Obj?
    ensures Get(Decode(s, j, MapBody(a, b, es), t).value.props, k) == Some(qs[i].val)
  {
    DecodeMapCase(s, j, t, kt, vt, a, b, es);
    DecodeEntriesPutAll(s, j, es, qs, kt, vt, []);
    PutAllLastWins([], qs, k, i);
  }

  /** Entry-wise round trip: the pairs a map's properties encode to decode
      back to those properties, in order. */
  lemma EntriesRoundTrip(s: Schema, j: JsonCodec, ps: seq<Prop>, kt: TypeRef, vt: TypeRef)
    requires DistinctKeys(ps)
    requires forall i {:trigger PropRoundTrips(s, j, kt, vt, ps[i])} :: 0 <= i < |ps| ==> PropRoundTrips(s, j, kt, vt, ps[i])
    ensures EncodeEntries(s, j, ps, kt, vt).Success?
    ensures DecodeEntries(s, j, EncodeEntries(s, j, ps, kt, vt).value, kt, vt, []) == Success(Obj(ps))
  {
    forall i | 0 <= i < |ps| ensures EncodeProp(s, j, ps[i], kt, vt).Success? {
      PairRoundTrip(s, j, kt, vt, ps[i]);
    }
    EncodeEntriesSucceeds(s, j, ps, kt, vt);
    EncodeEntriesSpec(s, j, ps, kt, vt);
    var es := EncodeEntries(s, j, ps, kt, vt).value;
    forall i | 0 <= i < |es| ensures DecodePair(s, j, es[i], kt, vt) == Success(ps[i]) {
      PairRoundTrip(s, j, kt, vt, ps[i]);
    }
    assert [] + ps == ps;
    DecodeEntriesAppends(s, j, es, ps, kt, vt, []);
  }

  /** The map case of each direction once the types are known. */
  /** The same for any host value whose own properties are `ps`. */
  lemma EncodeMapCaseOf(s: Schema, j: JsonCodec, t: TypeRef, kt: TypeRef, vt: TypeRef, h: Host, ps: seq<Prop>, kr: Resolved, vr: Resolved, es: seq<Pair>)
    requires IsMapType(s, t, kt, vt) && ParseType(s, kt) == Success(kr) && ParseType(s, vt) == Success(vr)
    requires MapProps(h) == Success(ps) && EncodeEntries(s, j, ps, kt, vt) == Success(es)
    ensures Encode(s, j, h, t) == Success(Tagged(MAP, MapBody(kr.plain, vr.plain, es)))
  {
  }

  lemma DecodeMapCase(s: Schema, j: JsonCodec, t: TypeRef, kt: TypeRef, vt: TypeRef, a: string, b: string, es: seq<Pair>)
    requires IsMapType(s, t, kt, vt)
    ensures Decode(s, j, MapBody(a, b, es), t) == DecodeEntries(s, j, es, kt, vt, [])
  {
  }

  /** Map round trip: an object whose every property round-trips comes
      back with the same properties in the same order. */
  lemma MapRoundTrip(s: Schema, j: JsonCodec, t: TypeRef, kt: TypeRef, vt: TypeRef, ps: seq<Prop>)
    requires IsMapType(s, t, kt, vt) && ParseType(s, kt).Success? && ParseType(s, vt).Success?
    requires DistinctKeys(ps)
    requires forall i {:trigger PropRoundTrips(s, j, kt, vt, ps[i])} :: 0 <= i < |ps| ==> PropRoundTrips(s, j, kt, vt, ps[i])
    ensures RoundTrips(s, j, Obj(ps), t)
  {
    EntriesRoundTrip(s, j, ps, kt, vt);
    var kr := ParseType(s, kt).value;
    var vr := ParseType(s, vt).value;
    var es := EncodeEntries(s, j, ps, kt, vt).value;
    EncodeMapCaseOf(s, j, t, kt, vt, Obj(ps), ps, kr, vr, es);
    DecodeMapCase(s, j, t, kt, vt, kr.plain, vr.plain, es);
  }

  /** Every key of the encoded map is the property name as a string. */
  predicate KeysAsStrings(r: Tagged, ps: seq<Prop>)
  {
    && r.value.MapBody?
    && |r.value.entries| == |ps|
    && forall i :: 0 <= i < |ps| ==> r.value.entries[i].key == Scalar(Str(ps[i].key))
  }

  /** With a scalar key type the property names are the keys themselves,
      passed through as strings: a map whose values round-trip round-trips. */
  lemma ScalarKeyMapRoundTrip(s: Schema, j: JsonCodec, t: TypeRef, kt: TypeRef, vt: TypeRef, kk: Kind, ps: seq<Prop>)
    requires IsMapType(s, t, kt, vt) && ResolvesTo(s, kt, kk) && IsScalar(kk) && kt.Named?
    requires ParseType(s, vt).Success?
    requires DistinctKeys(ps)
    requires forall i {:trigger RoundTrips(s, j, ps[i].val, vt)} :: 0 <= i < |ps| ==> RoundTrips(s, j, ps[i].val, vt)
    ensures RoundTrips(s, j, Obj(ps), t)
    ensures KeysAsStrings(Encode(s, j, Obj(ps), t).value, ps)
  {
    forall i | 0 <= i < |ps| ensures PropRoundTrips(s, j, kt, vt, ps[i]) && EncodeProp(s, j, ps[i], kt, vt).value.key == Scalar(Str(ps[i].key)) {
      ScalarRoundTrip(s, j, Str(ps[i].key), kt, kk);
      assert RoundTrips(s, j, ps[i].val, vt);
      EncodePropSpec(s, j, ps[i], kt, vt);
    }
    MapRoundTrip(s, j, t, kt, vt, ps);
    MapEncodeSpec(s, j, t, kt, vt, ps);
  }

  /** With a composite key type each property name is JSON text: a
      malformed one fails the encode. */
  lemma CompositeKeyMustParse(s: Schema, j: JsonCodec, t: TypeRef, kt: TypeRef, vt: TypeRef, ps: seq<Prop>, i: int)
    requires IsMapType(s, t, kt, vt) && ParseType(s, kt).Success? && CompositeKey(ParseType(s, kt).value, kt)
    requires 0 <= i < |ps| && j.parse(ps[i].key).None?
    ensures Encode(s, j, Obj(ps), t).Failure?
  {
    MapEncodeSucceeds(s, j, t, kt, vt, ps);
    EncodePropSpec(s, j, ps[i], kt, vt);
  }
}

=== FILE: decoder.dfy ===
/** The decoder: `decodeValueWithType`. It dispatches on the schema's type
    and never reads the kinds recorded in the tree. */
module Decoder {
  import opened Types
  import opened Errors
  import opened Values
  import opened Schema
  import opened Resolve
  import opened Canonical

  /** `decodeValueWithType(field, type)` on the payload `field.value`. A
      scalar type hands the payload back as the object it is; a struct
      yields an object, a list an array, a map an object. */
  function Decode(s: Schema, j: JsonCodec, p: Payload, t: TypeRef): (r: Result<Host>)
    ensures r.Success? ==> ParseType(s, t).Success? && KindOf(ParseType(s, t).value.plain).Some?
    ensures r.Success? && KindOf(ParseType(s, t).value.plain) == Some(LIST) ==> r.value.Arr?
    ensures r.Success? && KindOf(ParseType(s, t).value.plain) in {Some(STRUCT), Some(MAP)} ==> r.value.Obj?
    decreases p, 2, 0
  {
    var rt :- ParseType(s, t);
    match KindOf(rt.plain)
    case None => Failure(UnknownType(t))
    case Some(k) =>
      if IsScalar(k) then Success(AsHost(p))
      else if k.STRUCT? then
        match p
        case StructBody(fvs) =>
          var fields :- FieldListOf(s, t);
          DecodeFields(s, j, fields, fvs, [])
        case _ => Failure(PayloadMismatch)
      else if k.LIST? then
        match p
        case ListBody(_, data) =>
          (match ValueTypeOf(rt.thriftType)
           case Some(et) =>
             var items :- DecodeItems(s, j, data, et);
             Success(Arr(items))
           case None => if |data| == 0 then Success(Arr([])) else Failure(MissingElementType(t)))
        case _ => Failure(PayloadMismatch)
      else
        match p
        case MapBody(_, _, entries) =>
          (match rt.thriftType
           case MapOf(_, kt, vt) => DecodeEntries(s, j, entries, kt, vt, [])
           case _ => if |entries| == 0 then Success(Obj([])) else Failure(MissingElementType(t)))
        case _ => Failure(PayloadMismatch)
  }

  /** The walk over the schema's field list: a required field with no
      entry for its id fails, a present one is decoded and stored under its
      name, an absent optional one is left out. */
  function DecodeFields(s: Schema, j: JsonCodec, fields: seq<FieldDef>, fvs: seq<FieldValue>, acc: seq<Prop>): (r: Result<Host>)
    ensures r.Success? ==> r.value.Obj?
    decreases fvs, 1, |fields|
  {
    if |fields| == 0 then Success(Obj(acc))
    else
      var f := fields[0];
      var idx := Index(fvs);
      if f.id in idx then
        var v :- DecodeField(s, j, fvs[idx[f.id]], f.ftype);
        DecodeFields(s, j, fields[1..], fvs, Put(acc, f.name, v))
      else if f.option.Required? then Failure(RequiredFieldMissing(f.name))
      else DecodeFields(s, j, fields[1..], fvs, acc)
  }

  /** The indexed entry itself is what gets decoded; its `value` is read. */
  function DecodeField(s: Schema, j: JsonCodec, item: FieldValue, t: TypeRef): (r: Result<Host>)
    decreases item, 1, 0
  {
    Decode(s, j, item.value, t)
  }

  /** A list's payloads, each re-wrapped and decoded under the schema's
      element type, in order. */
  function DecodeItems(s: Schema, j: JsonCodec, data: seq<Payload>, et: TypeRef): (r: Result<seq<Host>>)
    ensures r.Success? ==> |r.value| == |data|
    decreases data, 1, 0
  {
    if |data| == 0 then Success([])
    else
      var h :- Decode(s, j, data[0], et);
      var rest :- DecodeItems(s, j, data[1..], et);
      Success([h] + rest)
  }

  /** A map's pairs in order, each stored as a property of the result; a
      repeated key keeps its first place and takes the later value. */
  function DecodeEntries(s: Schema, j: JsonCodec, entries: seq<Pair>, kt: TypeRef, vt: TypeRef, acc: seq<Prop>): (r: Result<Host>)
    ensures r.Success? ==> r.value.Obj?
    decreases entries, 1, 0
  {
    if |entries| == 0 then Success(Obj(acc))
    else
      var prop :- DecodePair(s, j, entries[0], kt, vt);
      DecodeEntries(s, j, entries[1..], kt, vt, Put(acc, prop.key, prop.val))
  }

  /** One pair: key, then value, then the key made a property name — JSON
      text for a composite key, `String(key)` otherwise. */
  function DecodePair(s: Schema, j: JsonCodec, e: Pair, kt: TypeRef, vt: TypeRef): (r: Result<Prop>)
    decreases e, 1, 0
  {
    var key :- Decode(s, j, e.key, kt);
    var val :- Decode(s, j, e.value, vt);
    match ParseType(s, kt)
    case Success(kr) =>
      var text := if CompositeKey(kr, kt) then j.stringify(key) else KeyText(key);
      Success(Prop(text, val))
    case Failure(err) => Failure(err)
  }
}

=== FILE: encoder.dfy ===
/** The encoder: `encodeStruct` and `encodeValueWithType`. */
module Encoder {
  import opened Types
  import opened Errors
  import opened Values
  import opened Schema
  import opened Resolve
  import opened Canonical

  /** `Object.keys(value)` with `value[k]`: an object's properties; a
      boolean or a number has none; anything else is refused. */
  function MapProps(h: Host): (r: Result<seq<Prop>>)
    ensures r.Success? ==> PropsSize(r.value) <= Size(h)
  {
    match h
    case Obj(ps) => Success(ps)
    case Bool(_) => Success([])
    case Num(_) => Success([])
    case _ => Failure(NotAnObject)
  }

  /** `encodeValueWithType(value, type)`. The tag of a result is always
      the kind the type resolves to. */
  function Encode(s: Schema, j: JsonCodec, h: Host, t: TypeRef): (r: Result<Tagged>)
    ensures r.Success? ==> ParseType(s, t).Success? && KindOf(ParseType(s, t).value.plain) == Some(r.value.kind)
    decreases Size(h), 3, 0
  {
    var rt :- ParseType(s, t);
    match KindOf(rt.plain)
    case None => Failure(UnknownType(t))
    case Some(k) =>
      if IsScalar(k) then Success(Tagged(k, Scalar(h)))
      else if k.STRUCT? then
        var fields :- FieldListOf(s, t);
        var body :- EncodeStruct(s, j, fields, h);
        Success(Tagged(STRUCT, body))
      else if k.LIST? then
        match h
        case Arr(items) =>
          (match ValueTypeOf(rt.thriftType)
           case None => Failure(MissingElementType(t))
           case Some(et) =>
             var data :- EncodeItems(s, j, items, et);
             var er :- ParseType(s, et);
             Success(Tagged(LIST, ListBody(er.plain, data))))
        case _ => Failure(NotAnArray)
      else
        var ps :- MapProps(h);
        match rt.thriftType
        case MapOf(_, kt, vt) =>
          var entries :- EncodeEntries(s, j, ps, kt, vt);
          var kr :- ParseType(s, kt);
          var vr :- ParseType(s, vt);
          Success(Tagged(MAP, MapBody(kr.plain, vr.plain, entries)))
        case _ => Failure(MissingElementType(t))
  }

  /** `encodeStruct(schema, params)`: the struct payload `{fields}`. With
      no fields to look up, `params` is never inspected. */
  function EncodeStruct(s: Schema, j: JsonCodec, fields: seq<FieldDef>, params: Host): (r: Result<Payload>)
    ensures r.Success? ==> r.value.StructBody? && |r.value.fields| <= |fields|
    decreases Size(params), 2, 0
  {
    if |fields| == 0 then Success(StructBody([]))
    else
      match params
      case Obj(ps) =>
        var fvs :- EncodeFields(s, j, fields, ps);
        Success(StructBody(fvs))
      case _ => Failure(NotAnObject)
  }

  /** The `map` over the field list and the `filter(Boolean)`: a field whose
      name is not a property is skipped, any other is encoded and tagged
      with its id. */
  function EncodeFields(s: Schema, j: JsonCodec, fields: seq<FieldDef>, ps: seq<Prop>): (r: Result<seq<FieldValue>>)
    ensures r.Success? ==> |r.value| <= |fields|
    decreases PropsSize(ps), 1, |fields|
  {
    if |fields| == 0 then Success([])
    else
      var f := fields[0];
      match Get(ps, f.name)
      case None => EncodeFields(s, j, fields[1..], ps)
      case Some(v) =>
        GetSmaller(ps, f.name);
        var e :- Encode(s, j, v, f.ftype);
        var rest :- EncodeFields(s, j, fields[1..], ps);
        Success([FieldValue(e.kind, e.value, f.id)] + rest)
  }

  /** A list's items, each encoded under the element type and untagged. */
  function EncodeItems(s: Schema, j: JsonCodec, items: seq<Host>, et: TypeRef): (r: Result<seq<Payload>>)
    ensures r.Success? ==> |r.value| == |items|
    decreases ItemsSize(items), 1, |items|
  {
    if |items| == 0 then Success([])
    else
      var e :- Encode(s, j, items[0], et);
      var rest :- EncodeItems(s, j, items[1..], et);
      Success([e.value] + rest)
  }

  /** A map's properties in key order, each giving one untagged pair. A
      composite key is JSON text and is parsed before it is encoded; any
      other key is encoded as the string it is. */
  function EncodeEntries(s: Schema, j: JsonCodec, ps: seq<Prop>, kt: TypeRef, vt: TypeRef): (r: Result<seq<Pair>>)
    ensures r.Success? ==> |r.value| == |ps|
    decreases PropsSize(ps), 1, |ps|
  {
    if |ps| == 0 then Success([])
    else
      var e :- EncodeProp(s, j, ps[0], kt, vt);
      var rest :- EncodeEntries(s, j, ps[1..], kt, vt);
      Success([e] + rest)
  }

  /** One property of a map: the key type is resolved (for every
      property), the name gives the key, then key and value are encoded. */
  function EncodeProp(s: Schema, j: JsonCodec, p: Prop, kt: TypeRef, vt: TypeRef): (r: Result<Pair>)
    decreases 1 + |p.key| + Size(p.val), 0, 0
  {
    var kr :- ParseType(s, kt);
    var key :- MapKey(j, kr, kt, p.key);
    var ke :- Encode(s, j, key, kt);
    var ve :- Encode(s, j, p.val, vt);
    Success(Pair(ke.value, ve.value))
  }

  /** The value a map's property name stands for: the parsed JSON text
      for a composite key, the name itself otherwise. */
  function MapKey(j: JsonCodec, kr: Resolved, kt: TypeRef, text: string): (r: Result<Host>)
    ensures r.Success? ==> Size(r.value) <= |text|
  {
    if CompositeKey(kr, kt) then ParseKey(j, text) else Success(Str(text))
  }
}

=== FILE: errors.dfy ===
/** The failures of the codec: the source's thrown errors, and the
    TypeErrors it would hit on ill-shaped values, as explicit results. */
module Errors {
  import opened Types

  datatype Error =
    | ServiceNotFound                 // the schema declares no service block
    | UnknownType(t: TypeRef)         // the resolved plain type names no kind
    | RequiredFieldMissing(name: string)
    | CyclicTypedef(alias: string)    // the alias chain revisits `alias`
    | MissingFieldList(t: TypeRef)    // no struct or exception under that exact name
    | MissingElementType(t: TypeRef)  // a LIST or MAP type without element types
    | NotAnArray                      // the host value under a LIST has no `map`
    | NotAnObject                     // the host value under a STRUCT or MAP has no keys
    | InvalidJson(text: string)       // a composite map key that does not parse
    | PayloadMismatch                 // the canonical payload does not fit the schema type

  datatype Result<+T> = Success(value: T) | Failure(error: Error) {
    predicate IsFailure() { Failure? }

    function PropagateFailure<U>(): Result<U>
      requires Failure?
    {
      Failure(error)
    }

    function Extract(): T
      requires Success?
    {
      value
    }
  }
}

=== FILE: resolve.dfy ===
/** Type resolution (`parseType`): follow typedef aliases, turn enums into
    I32 and structs or exceptions into STRUCT, upper-case scalar names, and
    take a container's kind from its `name`. */
module Resolve {
  import opened Types
  import opened Errors
  import opened Schema

  /** `toUpperCase` on ASCII letters. */
  function UpperChar(c: char): char
  {
    if 'a' <= c <= 'z' then (c as int - 32) as char else c
  }

  function Upper(s: string): string
  {
    seq(|s|, i requires 0 <= i < |s| => UpperChar(s[i]))
  }

  predicate IsAlias(s: Schema, t: TypeRef)
  {
    t.Named? && t.name in s.typedefs
  }

  /** One turn of the `while (type in typedef)` loop. */
  function Step(s: Schema, t: TypeRef): TypeRef
  {
    if IsAlias(s, t) then s.typedefs[t.name] else t
  }

  /** The reference after `n` turns of the loop. */
  function Steps(s: Schema, t: TypeRef, n: nat): TypeRef
    decreases n
  {
    if n == 0 then t else Steps(s, Step(s, t), n - 1)
  }

  /** The alias loop with the aliases already passed in `visited`: where
      the source would loop forever on a cycle, this fails naming the alias
      met twice. */
  function Follow(s: Schema, t: TypeRef, visited: set<string>): (r: Result<TypeRef>)
    ensures r.Success? ==> !IsAlias(s, r.value)
    ensures r.Failure? ==> r.error.CyclicTypedef?
    decreases s.typedefs.Keys - visited
  {
    if !IsAlias(s, t) then Success(t)
    else if t.name in visited then Failure(CyclicTypedef(t.name))
    else Follow(s, s.typedefs[t.name], visited + {t.name})
  }

  /** `{ thriftType, plainType }`. */
  datatype Resolved = Resolved(thriftType: TypeRef, plain: string)

  /** `String(type.name || type).toUpperCase()` on a container: an empty
      name is falsy, so the object itself is stringified. */
  function PlainName(name: string): string
  {
    if name == "" then "[OBJECT OBJECT]" else Upper(name)
  }

  /** Lines after the alias loop, applied in the source's order: an enum
      name becomes I32, then a struct or exception name becomes STRUCT,
      then a name is upper-cased. */
  function Classify(s: Schema, t: TypeRef): Resolved
  {
    match t
    case Named(n) =>
      var n1 := if n in s.enums then "I32" else n;
      var n2 := if n1 in s.structs || n1 in s.exceptions then "STRUCT" else n1;
      Resolved(Named(Upper(n2)), Upper(n2))
    case ListOf(name, _) => Resolved(t, PlainName(name))
    case MapOf(name, _, _) => Resolved(t, PlainName(name))
  }

  function ParseType(s: Schema, t: TypeRef): (r: Result<Resolved>)
    ensures r.Failure? ==> r.error.CyclicTypedef?
  {
    var target :- Follow(s, t, {});
    Success(Classify(s, target))
  }

  /** The key test both directions apply to a map's key type: STRUCT after
      resolution, or a container reference with a name. */
  predicate CompositeKey(kr: Resolved, kt: TypeRef)
  {
    kr.plain == "STRUCT" || HasName(kt)
  }

  // ---------------------------------------------------------------------
  // The alias chain

  lemma {:induction false} StepsSucc(s: Schema, t: TypeRef, n: nat)
    ensures Steps(s, t, n + 1) == Step(s, Steps(s, t, n))
    decreases n
  {
    if n > 0 {
      StepsSucc(s, Step(s, t), n - 1);
    }
  }

  lemma {:induction false} StepsAdd(s: Schema, t: TypeRef, a: nat, b: nat)
    ensures Steps(s, Steps(s, t, a), b) == Steps(s, t, a + b)
    decreases a
  {
    if a > 0 {
      StepsAdd(s, Step(s, t), a - 1, b);
    }
  }

  /** Once the loop leaves the typedef table it stays where it is. */
  lemma {:induction false} TerminalStays(s: Schema, t: TypeRef, n: nat, m: nat)
    requires !IsAlias(s, Steps(s, t, n))
    requires n <= m
    ensures Steps(s, t, m) == Steps(s, t, n)
    decreases m - n
  {
    if n < m {
      TerminalStays(s, t, n, m - 1);
      StepsSucc(s, t, m - 1);
    }
  }

  /** A chain that comes back to a reference it has left comes back to it
      again beyond any bound. */
  lemma {:induction false} ReturnBeyond(s: Schema, t: TypeRef, i: nat, j: nat, bound: int) returns (k: nat)
    requires i < j && Steps(s, t, i) == Steps(s, t, j)
    ensures k >= bound && Steps(s, t, k) == Steps(s, t, i)
    decreases bound
  {
    if bound <= i {
      k := i;
    } else {
      var k0 := ReturnBeyond(s, t, i, j, bound - (j - i));
      k := k0 + (j - i);
      StepsAdd(s, t, k0, j - i);
      StepsAdd(s, t, i, j - i);
    }
  }

  /** A chain that revisits an alias never leaves the typedef table. */
  lemma RevisitNeverTerminates(s: Schema, t: TypeRef, i: nat, j: nat)
    requires i < j && Steps(s, t, i) == Steps(s, t, j) && IsAlias(s, Steps(s, t, i))
    ensures forall n: nat :: IsAlias(s, Steps(s, t, n))
  {
    forall n: nat ensures IsAlias(s, Steps(s, t, n)) {
      if !IsAlias(s, Steps(s, t, n)) {
        var k := ReturnBeyond(s, t, i, j, n);
        TerminalStays(s, t, n, k);
        assert false;
      }
    }
  }

  /** `visited` holds exactly the aliases passed in the first `m` turns
      from `t0`. */
  ghost predicate VisitedPrefix(s: Schema, t0: TypeRef, m: nat, visited: set<string>)
  {
    && (forall k :: 0 <= k < m ==> IsAlias(s, Steps(s, t0, k)) && Steps(s, t0, k).name in visited)
    && (forall x :: x in visited ==> exists k :: 0 <= k < m && Steps(s, t0, k) == Named(x))
  }

  lemma {:induction false} FollowFromPrefix(s: Schema, t0: TypeRef, m: nat, visited: set<string>)
    requires VisitedPrefix(s, t0, m, visited)
    ensures Follow(s, Steps(s, t0, m), visited).Success? ==>
      exists n: nat :: Steps(s, t0, n) == Follow(s, Steps(s, t0, m), visited).value
    ensures Follow(s, Steps(s, t0, m), visited).Failure? ==>
      exists i: nat, j: nat :: i < j && Steps(s, t0, i) == Steps(s, t0, j) && IsAlias(s, Steps(s, t0, i))
    decreases s.typedefs.Keys - visited
  {
    var t := Steps(s, t0, m);
    if !IsAlias(s, t) {
    } else if t.name in visited {
      var k :| 0 <= k < m && Steps(s, t0, k) == Named(t.name);
      assert Steps(s, t0, k) == Steps(s, t0, m);
    } else {
      StepsSucc(s, t0, m);
      var v' := visited + {t.name};
      assert VisitedPrefix(s, t0, m + 1, v') by {
        forall x | x in v' ensures exists k :: 0 <= k < m + 1 && Steps(s, t0, k) == Named(x) {
          if x == t.name {
            assert Steps(s, t0, m) == Named(x);
          }
        }
      }
      FollowFromPrefix(s, t0, m + 1, v');
    }
  }

  /** The cycle check is exact: resolution fails precisely when the
      source's alias loop would never exit. */
  lemma ParseTypeFailsIffCyclic(s: Schema, t: TypeRef)
    ensures ParseType(s, t).Failure? <==> forall n: nat :: IsAlias(s, Steps(s, t, n))
  {
    assert VisitedPrefix(s, t, 0, {});
    FollowFromPrefix(s, t, 0, {});
    var r := Follow(s, t, {});
    if r.Failure? {
      var i: nat, j: nat :| i < j && Steps(s, t, i) == Steps(s, t, j) && IsAlias(s, Steps(s, t, i));
      RevisitNeverTerminates(s, t, i, j);
    } else {
      var n: nat :| Steps(s, t, n) == r.value;
    }
  }

  /** Resolving an alias chain of any length gives what resolving its
      final target directly gives. */
  lemma AliasChainResolves(s: Schema, t: TypeRef, n: nat)
    requires !IsAlias(s, Steps(s, t, n))
    ensures ParseType(s, t) == ParseType(s, Steps(s, t, n))
    ensures ParseType(s, t) == Success(Classify(s, Steps(s, t, n)))
  {
    assert VisitedPrefix(s, t, 0, {});
    FollowFromPrefix(s, t, 0, {});
    var r := Follow(s, t, {});
    if r.Failure? {
      var i: nat, j: nat :| i < j && Steps(s, t, i) == Steps(s, t, j) && IsAlias(s, Steps(s, t, i));
      RevisitNeverTerminates(s, t, i, j);
      assert false;
    }
    var m: nat :| Steps(s, t, m) == r.value;
    if m <= n {
      TerminalStays(s, t, m, n);
    } else {
      TerminalStays(s, t, n, m);
    }
  }
}

=== FILE: resolve_props.dfy ===
/** What resolution promises, and what it means for encoding and decoding. */
module ResolveProps {
  import opened Types
  import opened Errors
  import opened Values
  import opened Schema
  import opened Resolve
  import opened Canonical
  import opened Encoder
  import opened Decoder

  lemma UpperKindName(k: Kind)
    ensures Upper(KindName(k)) == KindName(k)
  {
    var n := KindName(k);
    assert forall i :: 0 <= i < |n| ==> !('a' <= n[i] <= 'z');
  }

  /** An enum name resolves to I32 (unless a struct is itself called I32). */
  lemma EnumResolvesToI32(s: Schema, n: string)
    requires n !in s.typedefs && n in s.enums
    requires "I32" !in s.structs && "I32" !in s.exceptions
    ensures ParseType(s, Named(n)) == Success(Resolved(Named("I32"), "I32"))
  {
    UpperKindName(I32);
  }

  /** The source's order of tests lets a struct named I32 capture every enum. */
  lemma EnumCapturedByStructNamedI32(s: Schema, n: string)
    requires n !in s.typedefs && n in s.enums
    requires "I32" in s.structs
    ensures ParseType(s, Named(n)) == Success(Resolved(Named("STRUCT"), "STRUCT"))
  {
    UpperKindName(STRUCT);
  }

  /** A struct or exception name resolves to STRUCT. */
  lemma StructResolvesToStruct(s: Schema, n: string)
    requires n !in s.typedefs && n !in s.enums
    requires n in s.structs || n in s.exceptions
    ensures ParseType(s, Named(n)) == Success(Resolved(Named("STRUCT"), "STRUCT"))
  {
    UpperKindName(STRUCT);
  }

  /** Scalar names match whatever their case. */
  lemma ScalarNameAnyCase(s: Schema, n: string, k: Kind)
    requires IsScalar(k) && Upper(n) == KindName(k)
    requires n !in s.typedefs && n !in s.enums && n !in s.structs && n !in s.exceptions
    ensures ParseType(s, Named(n)) == Success(Resolved(Named(KindName(k)), KindName(k)))
  {
  }

  /** A container reference keeps itself as `thriftType` and takes its kind
      from its name, whatever the case. */
  lemma ContainerKindFromName(s: Schema, t: TypeRef)
    requires !t.Named? && t.name != ""
    ensures ParseType(s, t) == Success(Resolved(t, Upper(t.name)))
    ensures KindOf(ParseType(s, t).value.plain) == Some(LIST) <==> Upper(t.name) == "LIST"
    ensures KindOf(ParseType(s, t).value.plain) == Some(MAP) <==> Upper(t.name) == "MAP"
  {
  }

  /** Every resolved name outside the ten kinds is refused, by both sides. */
  lemma UnknownTypeRejected(s: Schema, j: JsonCodec, t: TypeRef, h: Host, p: Payload)
    requires ParseType(s, t).Success? && KindOf(ParseType(s, t).value.plain).None?
    ensures Encode(s, j, h, t) == Failure(UnknownType(t))
    ensures Decode(s, j, p, t) == Failure(UnknownType(t))
  {
  }

  /** A `set` reference resolves to the plain kind SET, which neither
      direction handles. */
  lemma SetTypeRejected(s: Schema, j: JsonCodec, n: string, et: TypeRef, h: Host, p: Payload)
    requires Upper(n) == "SET"
    ensures Encode(s, j, h, ListOf(n, et)) == Failure(UnknownType(ListOf(n, et)))
    ensures Decode(s, j, p, ListOf(n, et)) == Failure(UnknownType(ListOf(n, et)))
  {
    assert n != "";
    ContainerKindFromName(s, ListOf(n, et));
    UnknownTypeRejected(s, j, ListOf(n, et), h, p);
  }

  /** Two references resolving alike are encoded alike, unless they
      resolve to STRUCT (whose field list is found by the name as written).
      Failures agree too, up to the reference they name. */
  lemma SameResolutionSameEncode(s: Schema, j: JsonCodec, t1: TypeRef, t2: TypeRef, h: Host)
    requires ParseType(s, t1) == ParseType(s, t2)
    requires ParseType(s, t1).Success? ==> KindOf(ParseType(s, t1).value.plain) != Some(STRUCT)
    ensures Encode(s, j, h, t1).Success? <==> Encode(s, j, h, t2).Success?
    ensures Encode(s, j, h, t1).Success? ==> Encode(s, j, h, t1) == Encode(s, j, h, t2)
  {
    if ParseType(s, t1).Success? {
      var rt := ParseType(s, t1).value;
      if KindOf(rt.plain) == Some(LIST) {
        SameResolutionSameListEncode(s, j, t1, t2, h);
      } else if KindOf(rt.plain) == Some(MAP) {
        SameResolutionSameMapEncode(s, j, t1, t2, h);
      } else {
        SameResolutionSameLeafEncode(s, j, t1, t2, h);
      }
    }
  }

  lemma SameResolutionSameLeafEncode(s: Schema, j: JsonCodec, t1: TypeRef, t2: TypeRef, h: Host)
    requires ParseType(s, t1) == ParseType(s, t2) && ParseType(s, t1).Success?
    requires KindOf(ParseType(s, t1).value.plain) !in {Some(STRUCT), Some(LIST), Some(MAP)}
    ensures Encode(s, j, h, t1).Success? <==> Encode(s, j, h, t2).Success?
    ensures Encode(s, j, h, t1).Success? ==> Encode(s, j, h, t1) == Encode(s, j, h, t2)
  {
  }

  lemma SameResolutionSameListEncode(s: Schema, j: JsonCodec, t1: TypeRef, t2: TypeRef, h: Host)
    requires ParseType(s, t1) == ParseType(s, t2)
    requires ParseType(s, t1).Success? && KindOf(ParseType(s, t1).value.plain) == Some(LIST)
    ensures Encode(s, j, h, t1).Success? <==> Encode(s, j, h, t2).Success?
    ensures Encode(s, j, h, t1).Success? ==> Encode(s, j, h, t1) == Encode(s, j, h, t2)
  {
    var rt := ParseType(s, t1).value;
    if h.Arr? && ValueTypeOf(rt.thriftType).Some? {
      var et := ValueTypeOf(rt.thriftType).value;
      assert Encode(s, j, h, t1) == Encode(s, j, h, t2) by {
        assert Encode(s, j, h, t1) ==
          (var data :- EncodeItems(s, j, h.items, et);
           var er :- ParseType(s, et);
           Success(Tagged(LIST, ListBody(er.plain, data))));
      }
    }
  }

  lemma SameResolutionSameMapEncode(s: Schema, j: JsonCodec, t1: TypeRef, t2: TypeRef, h: Host)
    requires ParseType(s, t1) == ParseType(s, t2)
    requires ParseType(s, t1).Success? && KindOf(ParseType(s, t1).value.plain) == Some(MAP)
    ensures Encode(s, j, h, t1).Success? <==> Encode(s, j, h, t2).Success?
    ensures Encode(s, j, h, t1).Success? ==> Encode(s, j, h, t1) == Encode(s, j, h, t2)
  {
    var rt := ParseType(s, t1).value;
    if MapProps(h).Success? && rt.thriftType.MapOf? {
      var ps := MapProps(h).value;
      var kt := rt.thriftType.keyType;
      var vt := rt.thriftType.valueType;
      assert Encode(s, j, h, t1) == Encode(s, j, h, t2) by {
        assert Encode(s, j, h, t1) ==
          (var entries :- EncodeEntries(s, j, ps, kt, vt);
           var kr :- ParseType(s, kt);
           var vr :- ParseType(s, vt);
           Success(Tagged(MAP, MapBody(kr.plain, vr.plain, entries))));
      }
    }
  }

  /** The same for decoding. */
  lemma SameResolutionSameDecode(s: Schema, j: JsonCodec, t1: TypeRef, t2: TypeRef, p: Payload)
    requires ParseType(s, t1) == ParseType(s, t2)
    requires ParseType(s, t1).Success? ==> KindOf(ParseType(s, t1).value.plain) != Some(STRUCT)
    ensures Decode(s, j, p, t1).Success? <==> Decode(s, j, p, t2).Success?
    ensures Decode(s, j, p, t1).Success? ==> Decode(s, j, p, t1) == Decode(s, j, p, t2)
  {
  }

  /** An alias chain of any length is encoded and decoded as its final
      target is, unless that target is a struct. */
  lemma AliasChainCodec(s: Schema, j: JsonCodec, t: TypeRef, n: nat, h: Host, p: Payload)
    requires !IsAlias(s, Steps(s, t, n))
    requires KindOf(Classify(s, Steps(s, t, n)).plain) != Some(STRUCT)
    ensures Encode(s, j, h, t).Success? <==> Encode(s, j, h, Steps(s, t, n)).Success?
    ensures Encode(s, j, h, t).Success? ==> Encode(s, j, h, t) == Encode(s, j, h, Steps(s, t, n))
    ensures Decode(s, j, p, t).Success? <==> Decode(s, j, p, Steps(s, t, n)).Success?
    ensures Decode(s, j, p, t).Success? ==> Decode(s, j, p, t) == Decode(s, j, p, Steps(s, t, n))
  {
    AliasChainResolves(s, t, n);
    SameResolutionSameEncode(s, j, t, Steps(s, t, n), h);
    SameResolutionSameDecode(s, j, t, Steps(s, t, n), p);
  }

  /** An enum-typed value is encoded and decoded as an I32 one. */
  lemma EnumCodecIsI32(s: Schema, j: JsonCodec, n: string, h: Host)
    requires n !in s.typedefs && n in s.enums
    requires "I32" !in s.typedefs && "I32" !in s.enums && "I32" !in s.structs && "I32" !in s.exceptions
    ensures Encode(s, j, h, Named(n)) == Encode(s, j, h, Named("I32")) == Success(Tagged(I32, Scalar(h)))
    ensures Decode(s, j, Scalar(h), Named(n)) == Decode(s, j, Scalar(h), Named("I32")) == Success(h)
  {
    EnumResolvesToI32(s, n);
    ScalarNameAnyCase(s, "I32", I32);
    UpperKindName(I32);
  }

  /** A typedef that names a struct loses its field list: the lookup uses
      the alias, so both directions fail. */
  lemma TypedefOfStructFails(s: Schema, j: JsonCodec, a: string, n: string, h: Host, fvs: seq<FieldValue>)
    requires a in s.typedefs && s.typedefs[a] == Named(n)
    requires a !in s.structs && a !in s.exceptions
    requires n !in s.typedefs && n !in s.enums && n in s.structs
    ensures Encode(s, j, h, Named(a)) == Failure(MissingFieldList(Named(a)))
    ensures Decode(s, j, StructBody(fvs), Named(a)) == Failure(MissingFieldList(Named(a)))
  {
    assert Steps(s, Named(a), 1) == Named(n);
    AliasChainResolves(s, Named(a), 1);
    StructResolvesToStruct(s, n);
    NoFieldListFails(s, j, Named(a), h, StructBody(fvs));
  }

  /** A reference that resolves to STRUCT but names no struct or exception
      as written fails both ways, for want of a field list. */
  lemma NoFieldListFails(s: Schema, j: JsonCodec, t: TypeRef, h: Host, p: Payload)
    requires ParseType(s, t).Success? && KindOf(ParseType(s, t).value.plain) == Some(STRUCT)
    requires FieldListOf(s, t).Failure? && p.StructBody?
    ensures Encode(s, j, h, t) == Failure(MissingFieldList(t))
    ensures Decode(s, j, p, t) == Failure(MissingFieldList(t))
  {
  }
}

=== FILE: schema.dfy ===
/** The schema model: the parser's tables, and the constructor that
    flattens every service block into one method table. */
module Schema {
  import opened Types
  import opened Errors

  /** A service method's signature, carried through but never read by the codec. */
  datatype MethodSig = MethodSig(returnType: TypeRef, args: seq<FieldDef>, throws: seq<FieldDef>, oneway: bool)

  datatype ServiceBlock = ServiceBlock(name: string, methods: map<string, MethodSig>)

  /** What the IDL parser returns; `services` is None when the schema
      declares no service, and otherwise lists the blocks in key order. */
  datatype ParsedIdl = ParsedIdl(
    typedefs: map<string, TypeRef>,
    structs: map<string, seq<FieldDef>>,
    exceptions: map<string, seq<FieldDef>>,
    enums: set<string>,
    services: Option<seq<ServiceBlock>>)

  /** The built codec schema: the parser's tables plus one merged service table. */
  datatype Schema = Schema(
    typedefs: map<string, TypeRef>,
    structs: map<string, seq<FieldDef>>,
    exceptions: map<string, seq<FieldDef>>,
    enums: set<string>,
    service: map<string, MethodSig>)

  /** The `reduce` with `Object.assign`: each block is copied over the
      table built from the blocks before it. */
  function MergeServices(blocks: seq<ServiceBlock>): map<string, MethodSig>
  {
    if |blocks| == 0 then map[]
    else MergeServices(blocks[..|blocks| - 1]) + blocks[|blocks| - 1].methods
  }

  function Build(idl: ParsedIdl): (r: Result<Schema>)
    ensures idl.services.None? <==> r == Failure(ServiceNotFound)
    ensures r.Success? ==>
      && r.value.typedefs == idl.typedefs
      && r.value.structs == idl.structs
      && r.value.exceptions == idl.exceptions
      && r.value.enums == idl.enums
  {
    match idl.services
    case None => Failure(ServiceNotFound)
    case Some(blocks) =>
      Success(Schema(idl.typedefs, idl.structs, idl.exceptions, idl.enums, MergeServices(blocks)))
  }

  /** The block whose definition of `m` survives the merge: the last one
      declaring it. */
  ghost predicate LastDeclares(blocks: seq<ServiceBlock>, m: string, i: int)
  {
    && 0 <= i < |blocks|
    && m in blocks[i].methods
    && forall j :: i < j < |blocks| ==> m !in blocks[j].methods
  }

  /** The merged table holds exactly the methods some block declares. */
  lemma {:induction false} MergeKeys(blocks: seq<ServiceBlock>, m: string)
    ensures m in MergeServices(blocks) <==> exists i :: 0 <= i < |blocks| && m in blocks[i].methods
  {
    if |blocks| > 0 {
      var init := blocks[..|blocks| - 1];
      MergeKeys(init, m);
      if exists i :: 0 <= i < |blocks| && m in blocks[i].methods {
        var i :| 0 <= i < |blocks| && m in blocks[i].methods;
        if i < |init| {
          assert init[i] == blocks[i];
        }
      }
    }
  }

  /** Each merged method is the one the last declaring block defines. */
  lemma {:induction false} MergeLastWins(blocks: seq<ServiceBlock>, m: string, i: int)
    requires LastDeclares(blocks, m, i)
    ensures m in MergeServices(blocks)
    ensures MergeServices(blocks)[m] == blocks[i].methods[m]
  {
    var init := blocks[..|blocks| - 1];
    if i < |blocks| - 1 {
      assert init[i] == blocks[i];
      assert LastDeclares(init, m, i);
      MergeLastWins(init, m, i);
    }
  }

  /** Construction fails exactly when there is no service block; otherwise
      every declared method is in the table, a later block's method
      overwriting an earlier one of the same name. */
  lemma BuildMergesServices(idl: ParsedIdl, m: string, i: int)
    requires idl.services.Some?
    requires LastDeclares(idl.services.value, m, i)
    ensures Build(idl).Success?
    ensures m in Build(idl).value.service
    ensures Build(idl).value.service[m] == idl.services.value[i].methods[m]
  {
    MergeLastWins(idl.services.value, m, i);
  }

  lemma BuildServiceKeys(idl: ParsedIdl, m: string)
    requires idl.services.Some?
    ensures m in Build(idl).value.service <==>
      exists i :: 0 <= i < |idl.services.value| && m in idl.services.value[i].methods
  {
    MergeKeys(idl.services.value, m);
  }

  /** `struct[type] || exception[type]`, looked up with the type reference
      as written, before any typedef is followed. */
  function FieldListOf(s: Schema, t: TypeRef): (r: Result<seq<FieldDef>>)
  {
    match t
    case Named(n) =>
      if n in s.structs then Success(s.structs[n])
      else if n in s.exceptions then Success(s.exceptions[n])
      else Failure(MissingFieldList(t))
    case _ => Failure(MissingFieldList(t))
  }
}

=== FILE: struct_props.dfy ===
/** What `encodeStruct` and the STRUCT case of the decoder promise, and the
    struct round trip. */
module StructProps {
  import opened Types
  import opened Errors
  import opened Values
  import opened Schema
  import opened Resolve
  import opened Canonical
  import opened Encoder
  import opened Decoder

  /** Decoding what a value encodes to under `t` gives the value back. */
  ghost predicate RoundTrips(s: Schema, j: JsonCodec, h: Host, t: TypeRef)
  {
    Encode(s, j, h, t).Success? && Decode(s, j, Encode(s, j, h, t).value.value, t) == Success(h)
  }

  /** The schema fields whose name is a property of the record, in
      declaration order. */
  function Present(fields: seq<FieldDef>, ps: seq<Prop>): seq<FieldDef>
  {
    if |fields| == 0 then []
    else (if Get(ps, fields[0].name).Some? then [fields[0]] else []) + Present(fields[1..], ps)
  }

  function Names(fields: seq<FieldDef>): set<string>
  {
    set i | 0 <= i < |fields| :: fields[i].name
  }

  predicate DistinctIds(fields: seq<FieldDef>)
  {
    forall a, b :: 0 <= a < b < |fields| ==> fields[a].id != fields[b].id
  }

  predicate DistinctNames(fields: seq<FieldDef>)
  {
    forall a, b :: 0 <= a < b < |fields| ==> fields[a].name != fields[b].name
  }

  /** Entry `q` of the struct payload is the encoding of the `q`-th
      present field, tagged with that field's id. */
  ghost predicate EncodesPresent(s: Schema, j: JsonCodec, fvs: seq<FieldValue>, pres: seq<FieldDef>, ps: seq<Prop>)
  {
    && |fvs| == |pres|
    && forall q :: 0 <= q < |fvs| ==> EntryEncodes(s, j, fvs[q], pres[q], ps)
  }

  /** One payload entry is the record's value of field `f`, encoded and
      tagged with the field's id. */
  ghost predicate EntryEncodes(s: Schema, j: JsonCodec, fv: FieldValue, f: FieldDef, ps: seq<Prop>)
  {
    && fv.id == f.id
    && Get(ps, f.name).Some?
    && Encode(s, j, Get(ps, f.name).value, f.ftype) == Success(Tagged(fv.kind, fv.value))
  }

  lemma {:induction false} PresentMembers(fields: seq<FieldDef>, ps: seq<Prop>)
    ensures forall x :: x in Present(fields, ps) <==> x in fields && Get(ps, x.name).Some?
  {
    if |fields| > 0 {
      PresentMembers(fields[1..], ps);
      assert fields == [fields[0]] + fields[1..];
    }
  }

  /** `encodeStruct` on a record succeeds exactly when every schema field
      present in the record encodes: an absent field, required or not,
      never makes it fail. */
  lemma {:induction false} EncodeFieldsSucceeds(s: Schema, j: JsonCodec, fields: seq<FieldDef>, ps: seq<Prop>)
    ensures EncodeFields(s, j, fields, ps).Success? <==>
      forall i :: 0 <= i < |fields| && Get(ps, fields[i].name).Some? ==>
        Encode(s, j, Get(ps, fields[i].name).value, fields[i].ftype).Success?
  {
    if |fields| > 0 {
      EncodeFieldsSucceeds(s, j, fields[1..], ps);
      forall i | 1 <= i < |fields| ensures fields[1..][i - 1] == fields[i] { }
    }
  }

  /** When it succeeds it lists exactly the present fields, in schema
      order, each the encoding of the record's value tagged with the
      field's id; other properties are not looked at. */
  lemma {:induction false} EncodeFieldsSpec(s: Schema, j: JsonCodec, fields: seq<FieldDef>, ps: seq<Prop>)
    requires EncodeFields(s, j, fields, ps).Success?
    ensures EncodesPresent(s, j, EncodeFields(s, j, fields, ps).value, Present(fields, ps), ps)
  {
    if |fields| > 0 {
      var f := fields[0];
      EncodeFieldsSpec(s, j, fields[1..], ps);
      if Get(ps, f.name).Some? {
        var e := Encode(s, j, Get(ps, f.name).value, f.ftype).value;
        EncodesPresentCons(s, j, FieldValue(e.kind, e.value, f.id), f,
          EncodeFields(s, j, fields[1..], ps).value, Present(fields[1..], ps), ps);
      }
    }
  }

  lemma EncodesPresentCons(s: Schema, j: JsonCodec, fv: FieldValue, f: FieldDef, fvs: seq<FieldValue>, pres: seq<FieldDef>, ps: seq<Prop>)
    requires EntryEncodes(s, j, fv, f, ps)
    requires EncodesPresent(s, j, fvs, pres, ps)
    ensures EncodesPresent(s, j, [fv] + fvs, [f] + pres, ps)
  {
    var r := [fv] + fvs;
    var p := [f] + pres;
    forall q | 0 <= q < |r| ensures EntryEncodes(s, j, r[q], p[q], ps) {
      if q > 0 {
        assert r[q] == fvs[q - 1] && p[q] == pres[q - 1];
      }
    }
  }

  /** Properties the schema does not name change nothing. */
  lemma {:induction false} ExtraKeysIgnored(s: Schema, j: JsonCodec, fields: seq<FieldDef>, ps: seq<Prop>, ps': seq<Prop>)
    requires forall i :: 0 <= i < |fields| ==> Get(ps, fields[i].name) == Get(ps', fields[i].name)
    ensures EncodeStruct(s, j, fields, Obj(ps)) == EncodeStruct(s, j, fields, Obj(ps'))
  {
    EncodeFieldsAgree(s, j, fields, ps, ps');
  }

  lemma {:induction false} EncodeFieldsAgree(s: Schema, j: JsonCodec, fields: seq<FieldDef>, ps: seq<Prop>, ps': seq<Prop>)
    requires forall i :: 0 <= i < |fields| ==> Get(ps, fields[i].name) == Get(ps', fields[i].name)
    ensures EncodeFields(s, j, fields, ps) == EncodeFields(s, j, fields, ps')
  {
    if |fields| > 0 {
      forall i | 0 <= i < |fields[1..]|
        ensures Get(ps, fields[1..][i].name) == Get(ps', fields[1..][i].name)
      {
        assert fields[1..][i] == fields[i + 1];
      }
      EncodeFieldsAgree(s, j, fields[1..], ps, ps');
    }
  }

  /** A record holding none of the schema's names, required ones
      included, encodes to an empty struct. */
  lemma {:induction false} NoFieldsPresentEncodesEmpty(s: Schema, j: JsonCodec, fields: seq<FieldDef>, ps: seq<Prop>)
    requires forall i :: 0 <= i < |fields| ==> Get(ps, fields[i].name).None?
    ensures EncodeFields(s, j, fields, ps) == Success([])
  {
    if |fields| > 0 {
      forall i | 0 <= i < |fields[1..]| ensures Get(ps, fields[1..][i].name).None? {
        assert fields[1..][i] == fields[i + 1];
      }
      NoFieldsPresentEncodesEmpty(s, j, fields[1..], ps);
    }
  }

  // ---------------------------------------------------------------------
  // Decoding

  /** No entry of the payload carries `id`. */
  predicate NoEntry(fvs: seq<FieldValue>, id: int)
  {
    forall k :: 0 <= k < |fvs| ==> fvs[k].id != id
  }

  /** One step of the field walk. */
  lemma DecodeFieldsStep(s: Schema, j: JsonCodec, fields: seq<FieldDef>, fvs: seq<FieldValue>, acc: seq<Prop>)
    requires |fields| > 0 && DecodeFields(s, j, fields, fvs, acc).Success?
    ensures fields[0].option.Required? ==> fields[0].id in Index(fvs)
    ensures fields[0].id in Index(fvs) ==>
      && DecodeField(s, j, fvs[Index(fvs)[fields[0].id]], fields[0].ftype).Success?
      && DecodeFields(s, j, fields, fvs, acc) ==
           DecodeFields(s, j, fields[1..], fvs, Put(acc, fields[0].name, DecodeField(s, j, fvs[Index(fvs)[fields[0].id]], fields[0].ftype).value))
    ensures fields[0].id !in Index(fvs) ==> DecodeFields(s, j, fields, fvs, acc) == DecodeFields(s, j, fields[1..], fvs, acc)
  {
  }

  /** The names of the fields that have an entry: the first field's, if it
      has one, and the rest's. */
  lemma EntryNamesCons(fields: seq<FieldDef>, fvs: seq<FieldValue>)
    requires |fields| > 0
    ensures (set i | 0 <= i < |fields| && !NoEntry(fvs, fields[i].id) :: fields[i].name) ==
      (if NoEntry(fvs, fields[0].id) then {} else {fields[0].name})
      + (set i | 0 <= i < |fields[1..]| && !NoEntry(fvs, fields[1..][i].id) :: fields[1..][i].name)
  {
    var f := fields[0];
    var all := set i | 0 <= i < |fields| && !NoEntry(fvs, fields[i].id) :: fields[i].name;
    var tail := set i | 0 <= i < |fields[1..]| && !NoEntry(fvs, fields[1..][i].id) :: fields[1..][i].name;
    forall x | x in all ensures x in (if NoEntry(fvs, f.id) then {} else {f.name}) + tail {
      var i :| 0 <= i < |fields| && !NoEntry(fvs, fields[i].id) && fields[i].name == x;
      if i > 0 {
        assert fields[1..][i - 1] == fields[i];
      }
    }
    forall x | x in tail ensures x in all {
      var i :| 0 <= i < |fields[1..]| && !NoEntry(fvs, fields[1..][i].id) && fields[1..][i].name == x;
      assert fields[1..][i] == fields[i + 1];
    }
  }

  /** A successful decode saw an entry for every required field, and the
      object holds exactly the names of the fields that had an entry: an
      absent optional field is left out, not defaulted. */
  lemma {:induction false} DecodeFieldsKeys(s: Schema, j: JsonCodec, fields: seq<FieldDef>, fvs: seq<FieldValue>, acc: seq<Prop>)
    requires DecodeFields(s, j, fields, fvs, acc).Success?
    ensures forall i :: 0 <= i < |fields| && fields[i].option.Required? ==> !NoEntry(fvs, fields[i].id)
    ensures Keys(DecodeFields(s, j, fields, fvs, acc).value.props) ==
      Keys(acc) + (set i | 0 <= i < |fields| && !NoEntry(fvs, fields[i].id) :: fields[i].name)
  {
    if |fields| > 0 {
      var f := fields[0];
      DecodeFieldsStep(s, j, fields, fvs, acc);
      IndexLastWins(fvs, f.id);
      assert f.id in Index(fvs) <==> !NoEntry(fvs, f.id);
      var acc' := if f.id in Index(fvs) then Put(acc, f.name, DecodeField(s, j, fvs[Index(fvs)[f.id]], f.ftype).value) else acc;
      DecodeFieldsKeys(s, j, fields[1..], fvs, acc');
      if f.id in Index(fvs) {
        PutKeys(acc, f.name, DecodeField(s, j, fvs[Index(fvs)[f.id]], f.ftype).value);
      }
      forall i | 1 <= i < |fields| ensures fields[1..][i - 1] == fields[i] { }
      EntryNamesCons(fields, fvs);
    }
  }

  /** The field a decoded name holds is the schema-typed decoding of the
      last entry carrying the field's id. */
  lemma {:induction false} DecodeFieldsValues(s: Schema, j: JsonCodec, fields: seq<FieldDef>, fvs: seq<FieldValue>, acc: seq<Prop>, i: int)
    requires DistinctNames(fields)
    requires DecodeFields(s, j, fields, fvs, acc).Success?
    requires 0 <= i < |fields|
    ensures !NoEntry(fvs, fields[i].id) ==>
      exists k :: LastWithId(fvs, fields[i].id, k)
        && Get(DecodeFields(s, j, fields, fvs, acc).value.props, fields[i].name).Some?
        && Decode(s, j, fvs[k].value, fields[i].ftype) ==
             Success(Get(DecodeFields(s, j, fields, fvs, acc).value.props, fields[i].name).value)
    ensures NoEntry(fvs, fields[i].id) ==>
      Get(DecodeFields(s, j, fields, fvs, acc).value.props, fields[i].name) == Get(acc, fields[i].name)
  {
    var f := fields[0];
    IndexLastWins(fvs, f.id);
    var acc' := if f.id in Index(fvs) then Put(acc, f.name, DecodeField(s, j, fvs[Index(fvs)[f.id]], f.ftype).value) else acc;
    assert DecodeFields(s, j, fields, fvs, acc) == DecodeFields(s, j, fields[1..], fvs, acc');
    assert DistinctNames(fields[1..]);
    if f.id in Index(fvs) {
      PutGet(acc, f.name, DecodeField(s, j, fvs[Index(fvs)[f.id]], f.ftype).value);
    }
    if i == 0 {
      if |fields| > 1 {
        forall i' | 0 <= i' < |fields[1..]| ensures fields[1..][i'].name != f.name {
          assert fields[1..][i'] == fields[i' + 1];
        }
        DecodeFieldsUntouched(s, j, fields[1..], fvs, acc', f.name);
      }
    } else {
      assert fields[1..][i - 1] == fields[i];
      DecodeFieldsValues(s, j, fields[1..], fvs, acc', i - 1);
      if NoEntry(fvs, fields[i].id) {
        assert fields[i].name != f.name;
      }
    }
  }

  /** Fields that do not carry the name, or carry it but have no entry,
      leave it as it was. */
  lemma {:induction false} DecodeFieldsUntouched(s: Schema, j: JsonCodec, fields: seq<FieldDef>, fvs: seq<FieldValue>, acc: seq<Prop>, name: string)
    requires DecodeFields(s, j, fields, fvs, acc).Success?
    requires forall i :: 0 <= i < |fields| ==> fields[i].name != name || NoEntry(fvs, fields[i].id)
    ensures Get(DecodeFields(s, j, fields, fvs, acc).value.props, name) == Get(acc, name)
  {
    if |fields| > 0 {
      var f := fields[0];
      IndexLastWins(fvs, f.id);
      var acc' := if f.id in Index(fvs) then Put(acc, f.name, DecodeField(s, j, fvs[Index(fvs)[f.id]], f.ftype).value) else acc;
      if f.id in Index(fvs) {
        PutGet(acc, f.name, DecodeField(s, j, fvs[Index(fvs)[f.id]], f.ftype).value);
      }
      forall i | 0 <= i < |fields[1..]| ensures fields[1..][i].name != name || NoEntry(fvs, fields[1..][i].id) {
        assert fields[1..][i] == fields[i + 1];
      }
      DecodeFieldsUntouched(s, j, fields[1..], fvs, acc', name);
    }
  }

  /** With several fields of one name, the name holds the decoding of the
      last of them, in schema order, that has an entry: each assignment
      overwrites the one before. */
  lemma {:induction false} DecodeFieldsLastFieldWins(s: Schema, j: JsonCodec, fields: seq<FieldDef>, fvs: seq<FieldValue>, acc: seq<Prop>, i: int)
    requires DecodeFields(s, j, fields, fvs, acc).Success?
    requires 0 <= i < |fields| && !NoEntry(fvs, fields[i].id)
    requires forall k :: i < k < |fields| && fields[k].name == fields[i].name ==> NoEntry(fvs, fields[k].id)
    ensures
      exists k :: LastWithId(fvs, fields[i].id, k)
        && Get(DecodeFields(s, j, fields, fvs, acc).value.props, fields[i].name).Some?
        && Decode(s, j, fvs[k].value, fields[i].ftype) ==
             Success(Get(DecodeFields(s, j, fields, fvs, acc).value.props, fields[i].name).value)
  {
    var f := fields[0];
    IndexLastWins(fvs, f.id);
    var acc' := if f.id in Index(fvs) then Put(acc, f.name, DecodeField(s, j, fvs[Index(fvs)[f.id]], f.ftype).value) else acc;
    assert DecodeFields(s, j, fields, fvs, acc) == DecodeFields(s, j, fields[1..], fvs, acc');
    if i == 0 {
      PutGet(acc, f.name, DecodeField(s, j, fvs[Index(fvs)[f.id]], f.ftype).value);
      forall k | 0 <= k < |fields[1..]| ensures fields[1..][k].name != f.name || NoEntry(fvs, fields[1..][k].id) {
        assert fields[1..][k] == fields[k + 1];
      }
      DecodeFieldsUntouched(s, j, fields[1..], fvs, acc', f.name);
    } else {
      forall k | i - 1 < k < |fields[1..]| && fields[1..][k].name == fields[1..][i - 1].name
        ensures NoEntry(fvs, fields[1..][k].id)
      {
        assert fields[1..][k] == fields[k + 1];
      }
      assert fields[1..][i - 1] == fields[i];
      DecodeFieldsLastFieldWins(s, j, fields[1..], fvs, acc', i - 1);
    }
  }

  /** A required field with no entry fails the decode, naming that field,
      once the fields before it have gone through. */
  lemma {:induction false} RequiredFieldMissingNamed(s: Schema, j: JsonCodec, fields: seq<FieldDef>, fvs: seq<FieldValue>, acc: seq<Prop>, i: int)
    requires 0 <= i < |fields| && fields[i].option.Required? && NoEntry(fvs, fields[i].id)
    requires forall k :: 0 <= k < i ==>
      (NoEntry(fvs, fields[k].id) ==> !fields[k].option.Required?)
      && (fields[k].id in Index(fvs) ==> DecodeField(s, j, fvs[Index(fvs)[fields[k].id]], fields[k].ftype).Success?)
    ensures DecodeFields(s, j, fields, fvs, acc) == Failure(RequiredFieldMissing(fields[i].name))
  {
    var f := fields[0];
    IndexLastWins(fvs, f.id);
    if i > 0 {
      var acc' := if f.id in Index(fvs) then Put(acc, f.name, DecodeField(s, j, fvs[Index(fvs)[f.id]], f.ftype).value) else acc;
      forall k | 0 <= k < |fields[1..]| ensures fields[1..][k] == fields[k + 1] { }
      RequiredFieldMissingNamed(s, j, fields[1..], fvs, acc', i - 1);
    }
  }

  // ---------------------------------------------------------------------
  // The round trip

  /** The record cut down to the schema's names, the properties put in
      schema order. */
  function Restrict(fields: seq<FieldDef>, ps: seq<Prop>, acc: seq<Prop>): seq<Prop>
  {
    if |fields| == 0 then acc
    else match Get(ps, fields[0].name)
      case None => Restrict(fields[1..], ps, acc)
      case Some(v) => Restrict(fields[1..], ps, Put(acc, fields[0].name, v))
  }

  lemma NamesCons(fields: seq<FieldDef>)
    requires |fields| > 0
    ensures Names(fields) == {fields[0].name} + Names(fields[1..])
  {
    forall x | x in Names(fields) ensures x in {fields[0].name} + Names(fields[1..]) {
      var i :| 0 <= i < |fields| && fields[i].name == x;
      if i > 0 { assert fields[1..][i - 1].name == x; }
    }
    forall x | x in Names(fields[1..]) ensures x in Names(fields) {
      var i :| 0 <= i < |fields[1..]| && fields[1..][i].name == x;
      assert fields[i + 1].name == x;
    }
  }

  /** Restriction keeps exactly the record's properties that the schema
      names. */
  lemma {:induction false} RestrictKeys(fields: seq<FieldDef>, ps: seq<Prop>, acc: seq<Prop>)
    ensures Keys(Restrict(fields, ps, acc)) == Keys(acc) + (Keys(ps) * Names(fields))
  {
    if |fields| > 0 {
      var f := fields[0];
      var acc' := if Get(ps, f.name).Some? then Put(acc, f.name, Get(ps, f.name).value) else acc;
      RestrictKeys(fields[1..], ps, acc');
      NamesCons(fields);
      if Get(ps, f.name).Some? {
        PutKeys(acc, f.name, Get(ps, f.name).value);
        assert f.name in Keys(ps);
      } else {
        assert f.name !in Keys(ps);
      }
    }
  }

  /** ... and keeps their values. */
  lemma {:induction false} RestrictValues(fields: seq<FieldDef>, ps: seq<Prop>, acc: seq<Prop>, k: string)
    ensures k in Names(fields) && Get(ps, k).Some? ==> Get(Restrict(fields, ps, acc), k) == Get(ps, k)
    ensures k !in Names(fields) ==> Get(Restrict(fields, ps, acc), k) == Get(acc, k)
  {
    if |fields| > 0 {
      var f := fields[0];
      var acc' := if Get(ps, f.name).Some? then Put(acc, f.name, Get(ps, f.name).value) else acc;
      RestrictValues(fields[1..], ps, acc', k);
      NamesCons(fields);
      if Get(ps, f.name).Some? {
        PutGet(acc, f.name, Get(ps, f.name).value);
      }
    }
  }

  /** Every field's entry in the payload is where the decoder will find
      it, and decodes back to the record's value; an absent field has no
      entry and is not required. */
  ghost predicate Indexed(s: Schema, j: JsonCodec, fields: seq<FieldDef>, fvs: seq<FieldValue>, ps: seq<Prop>)
  {
    forall i :: 0 <= i < |fields| ==>
      (Get(ps, fields[i].name).Some? ==>
         fields[i].id in Index(fvs)
         && DecodeField(s, j, fvs[Index(fvs)[fields[i].id]], fields[i].ftype) == Success(Get(ps, fields[i].name).value))
      && (Get(ps, fields[i].name).None? ==> fields[i].id !in Index(fvs) && !fields[i].option.Required?)
  }

  lemma {:induction false} DecodeIndexed(s: Schema, j: JsonCodec, fields: seq<FieldDef>, fvs: seq<FieldValue>, ps: seq<Prop>, acc: seq<Prop>)
    requires Indexed(s, j, fields, fvs, ps)
    ensures DecodeFields(s, j, fields, fvs, acc) == Success(Obj(Restrict(fields, ps, acc)))
  {
    if |fields| > 0 {
      assert Indexed(s, j, fields[1..], fvs, ps) by {
        forall i | 0 <= i < |fields[1..]| ensures fields[1..][i] == fields[i + 1] { }
      }
      var f := fields[0];
      var acc' := if Get(ps, f.name).Some? then Put(acc, f.name, Get(ps, f.name).value) else acc;
      DecodeIndexed(s, j, fields[1..], fvs, ps, acc');
    }
  }

  /** With distinct field ids, the encoded payload is indexed as the
      decoder needs. */
  lemma EncodedIsIndexed(s: Schema, j: JsonCodec, fields: seq<FieldDef>, ps: seq<Prop>)
    requires DistinctIds(fields)
    requires forall i :: 0 <= i < |fields| && fields[i].option.Required? ==> Get(ps, fields[i].name).Some?
    requires forall i :: 0 <= i < |fields| && Get(ps, fields[i].name).Some? ==>
      RoundTrips(s, j, Get(ps, fields[i].name).value, fields[i].ftype)
    ensures EncodeFields(s, j, fields, ps).Success?
    ensures Indexed(s, j, fields, EncodeFields(s, j, fields, ps).value, ps)
  {
    EncodeFieldsSucceeds(s, j, fields, ps);
    EncodeFieldsSpec(s, j, fields, ps);
    PresentMembers(fields, ps);
    var fvs := EncodeFields(s, j, fields, ps).value;
    forall i | 0 <= i < |fields|
      ensures Get(ps, fields[i].name).Some? ==>
        fields[i].id in Index(fvs)
        && DecodeField(s, j, fvs[Index(fvs)[fields[i].id]], fields[i].ftype) == Success(Get(ps, fields[i].name).value)
      ensures Get(ps, fields[i].name).None? ==> fields[i].id !in Index(fvs) && !fields[i].option.Required?
    {
      if Get(ps, fields[i].name).Some? {
        PresentFieldIndexed(s, j, fields, ps, fvs, i);
      } else {
        AbsentFieldNotIndexed(fields, ps, fvs, i);
      }
    }
  }

  /** The entry the decoder picks for a present field is the one encoded
      from it. */
  lemma PresentFieldIndexed(s: Schema, j: JsonCodec, fields: seq<FieldDef>, ps: seq<Prop>, fvs: seq<FieldValue>, i: int)
    requires DistinctIds(fields) && 0 <= i < |fields| && Get(ps, fields[i].name).Some?
    requires RoundTrips(s, j, Get(ps, fields[i].name).value, fields[i].ftype)
    requires EncodesPresent(s, j, fvs, Present(fields, ps), ps)
    requires forall x :: x in Present(fields, ps) <==> x in fields && Get(ps, x.name).Some?
    ensures fields[i].id in Index(fvs)
    ensures DecodeField(s, j, fvs[Index(fvs)[fields[i].id]], fields[i].ftype) == Success(Get(ps, fields[i].name).value)
  {
    var f := fields[i];
    var pres := Present(fields, ps);
    IndexLastWins(fvs, f.id);
    assert f in pres;
    var q :| 0 <= q < |pres| && pres[q] == f;
    assert fvs[q].id == f.id;
    var p := Index(fvs)[f.id];
    assert pres[p] in fields;
    var i' :| 0 <= i' < |fields| && fields[i'] == pres[p];
    assert fields[i'].id == f.id;
    assert i' == i;
  }

  /** An absent field has no entry. */
  lemma AbsentFieldNotIndexed(fields: seq<FieldDef>, ps: seq<Prop>, fvs: seq<FieldValue>, i: int)
    requires DistinctIds(fields) && 0 <= i < |fields| && Get(ps, fields[i].name).None?
    requires |fvs| == |Present(fields, ps)|
    requires forall q :: 0 <= q < |fvs| ==> fvs[q].id == Present(fields, ps)[q].id
    requires forall x :: x in Present(fields, ps) <==> x in fields && Get(ps, x.name).Some?
    ensures fields[i].id !in Index(fvs)
  {
    var pres := Present(fields, ps);
    IndexLastWins(fvs, fields[i].id);
    if fields[i].id in Index(fvs) {
      assert false;
    }
  }

  /** Arguments under which a struct round trip holds: field ids are
      distinct, the record holds every required field, and each field
      value present round-trips under its field type. */
  ghost predicate StructRoundTripArgs(s: Schema, j: JsonCodec, fields: seq<FieldDef>, ps: seq<Prop>)
  {
    && DistinctIds(fields)
    && (forall i :: 0 <= i < |fields| && fields[i].option.Required? ==> Get(ps, fields[i].name).Some?)
    && (forall i :: 0 <= i < |fields| && Get(ps, fields[i].name).Some? ==>
          RoundTrips(s, j, Get(ps, fields[i].name).value, fields[i].ftype))
  }

  /** The struct case of each direction once the field list is known. */
  lemma EncodeStructCase(s: Schema, j: JsonCodec, t: TypeRef, ps: seq<Prop>, fvs: seq<FieldValue>)
    requires ParseType(s, t).Success? && KindOf(ParseType(s, t).value.plain) == Some(STRUCT)
    requires FieldListOf(s, t).Success? && EncodeFields(s, j, FieldListOf(s, t).value, ps) == Success(fvs)
    ensures Encode(s, j, Obj(ps), t) == Success(Tagged(STRUCT, StructBody(fvs)))
  {
  }

  /** The same for any struct payload. */
  lemma DecodeStructCaseOf(s: Schema, j: JsonCodec, t: TypeRef, p: Payload)
    requires ParseType(s, t).Success? && KindOf(ParseType(s, t).value.plain) == Some(STRUCT)
    requires FieldListOf(s, t).Success? && p.StructBody?
    ensures Decode(s, j, p, t) == DecodeFields(s, j, FieldListOf(s, t).value, p.fields, [])
  {
  }

  /** Struct round trip: a record encoded under a struct type and decoded
      under it again is the record restricted to the struct's field names,
      in schema order. */
  lemma StructRoundTrip(s: Schema, j: JsonCodec, t: TypeRef, ps: seq<Prop>)
    requires ParseType(s, t).Success? && KindOf(ParseType(s, t).value.plain) == Some(STRUCT)
    requires FieldListOf(s, t).Success?
    requires StructRoundTripArgs(s, j, FieldListOf(s, t).value, ps)
    ensures Encode(s, j, Obj(ps), t).Success?
    ensures Decode(s, j, Encode(s, j, Obj(ps), t).value.value, t) == Success(Obj(Restrict(FieldListOf(s, t).value, ps, [])))
  {
    var fields := FieldListOf(s, t).value;
    EncodedIsIndexed(s, j, fields, ps);
    var fvs := EncodeFields(s, j, fields, ps).value;
    DecodeIndexed(s, j, fields, fvs, ps, []);
    EncodeStructCase(s, j, t, ps, fvs);
    DecodeStructCaseOf(s, j, t, StructBody(fvs));
  }
}

=== FILE: types.dfy ===
/** Type references as the IDL parser hands them to the codec, field
    definitions, and the ten kinds of the canonical value tree. */
module Types {

  datatype Option<+T> = None | Some(value: T)

  /** A type reference: a bare name (a scalar, a typedef alias, an enum, a
      struct or an exception), or a container object whose `name` field says
      what it is (`list`, `set` or `map` in well-formed parser output). */
  datatype TypeRef =
    | Named(name: string)
    | ListOf(name: string, valueType: TypeRef)
    | MapOf(name: string, keyType: TypeRef, valueType: TypeRef)

  /** The element type a container reference carries (`thriftType.valueType`). */
  function ValueTypeOf(t: TypeRef): Option<TypeRef>
  {
    match t
    case Named(_) => None
    case ListOf(_, v) => Some(v)
    case MapOf(_, _, v) => Some(v)
  }

  /** True when `t.name` is truthy: a container reference with a non-empty name. */
  predicate HasName(t: TypeRef)
  {
    !t.Named? && t.name != ""
  }

  datatype Presence = Required | Optional | Default

  datatype FieldDef = FieldDef(id: int, name: string, ftype: TypeRef, option: Presence)

  /** The kinds the encoder and decoder dispatch on. */
  datatype Kind = BOOL | BYTE | I16 | I32 | I64 | DOUBLE | STRING | STRUCT | LIST | MAP

  predicate IsScalar(k: Kind)
  {
    !(k.STRUCT? || k.LIST? || k.MAP?)
  }

  function KindName(k: Kind): string
  {
    match k
    case BOOL => "BOOL"
    case BYTE => "BYTE"
    case I16 => "I16"
    case I32 => "I32"
    case I64 => "I64"
    case DOUBLE => "DOUBLE"
    case STRING => "STRING"
    case STRUCT => "STRUCT"
    case LIST => "LIST"
    case MAP => "MAP"
  }

  /** The `switch (plainType)` of the encoder and decoder: a plain type text
      names a kind only when it is spelled exactly as one of the ten cases. */
  function KindOf(plain: string): (r: Option<Kind>)
    ensures r.Some? ==> KindName(r.value) == plain
    ensures r.None? ==> forall k: Kind :: KindName(k) != plain
  {
    if plain == "BOOL" then Some(BOOL)
    else if plain == "BYTE" then Some(BYTE)
    else if plain == "I16" then Some(I16)
    else if plain == "I32" then Some(I32)
    else if plain == "I64" then Some(I64)
    else if plain == "DOUBLE" then Some(DOUBLE)
    else if plain == "STRING" then Some(STRING)
    else if plain == "STRUCT" then Some(STRUCT)
    else if plain == "LIST" then Some(LIST)
    else if plain == "MAP" then Some(MAP)
    else None
  }
}

=== FILE: values.dfy ===
/** Host values: the JavaScript values the codec reads and builds. Objects
    are ordered property lists, as JavaScript objects keep insertion order. */
module Values {
  import opened Types
  import opened Errors

  datatype Host =
    | Null
    | Bool(b: bool)
    | Num(n: int)
    | Str(s: string)
    | Arr(items: seq<Host>)
    | Obj(props: seq<Prop>)

  datatype Prop = Prop(key: string, val: Host)

  /** `k in obj` and `obj[k]` on an object's own properties. */
  function Get(ps: seq<Prop>, k: string): (r: Option<Host>)
    ensures r.Some? <==> exists i :: 0 <= i < |ps| && ps[i].key == k
  {
    if |ps| == 0 then None
    else if ps[0].key == k then Some(ps[0].val)
    else Get(ps[1..], k)
  }

  /** `obj[k] = v`: an existing property keeps its place and takes the new
      value; a new one is appended. */
  function Put(ps: seq<Prop>, k: string, v: Host): (r: seq<Prop>)
  {
    if |ps| == 0 then [Prop(k, v)]
    else if ps[0].key == k then [Prop(k, v)] + ps[1..]
    else [ps[0]] + Put(ps[1..], k, v)
  }

  function Keys(ps: seq<Prop>): set<string>
  {
    set i | 0 <= i < |ps| :: ps[i].key
  }

  /** No key occurs twice, as in any real JavaScript object. */
  predicate DistinctKeys(ps: seq<Prop>)
  {
    forall i, j :: 0 <= i < j < |ps| ==> ps[i].key != ps[j].key
  }

  lemma KeysCons(ps: seq<Prop>)
    requires |ps| > 0
    ensures Keys(ps) == {ps[0].key} + Keys(ps[1..])
  {
    forall x | x in Keys(ps) ensures x in {ps[0].key} + Keys(ps[1..]) {
      var i :| 0 <= i < |ps| && ps[i].key == x;
      if i > 0 { assert ps[1..][i - 1].key == x; }
    }
  }

  /** Setting a property makes it read back, leaves every other key as it
      was, and adds exactly that key. */
  lemma {:induction false} PutGet(ps: seq<Prop>, k: string, v: Host)
    ensures Get(Put(ps, k, v), k) == Some(v)
    ensures forall k' :: k' != k ==> Get(Put(ps, k, v), k') == Get(ps, k')
  {
    if |ps| > 0 && ps[0].key != k {
      PutGet(ps[1..], k, v);
    }
  }

  lemma {:induction false} PutKeys(ps: seq<Prop>, k: string, v: Host)
    ensures Keys(Put(ps, k, v)) == Keys(ps) + {k}
    ensures k !in Keys(ps) ==> Put(ps, k, v) == ps + [Prop(k, v)]
  {
    var r := Put(ps, k, v);
    if |ps| == 0 {
      assert Keys(r) == {k} by { KeysCons(r); }
    } else {
      KeysCons(ps);
      KeysCons(r);
      if ps[0].key != k {
        PutKeys(ps[1..], k, v);
        assert r[1..] == Put(ps[1..], k, v);
      } else {
        assert r[1..] == ps[1..];
      }
    }
  }

  lemma {:induction false} PutDistinct(ps: seq<Prop>, k: string, v: Host)
    requires DistinctKeys(ps)
    ensures DistinctKeys(Put(ps, k, v))
  {
    var r := Put(ps, k, v);
    if |ps| > 0 && ps[0].key != k {
      PutDistinct(ps[1..], k, v);
      PutKeys(ps[1..], k, v);
      assert r[1..] == Put(ps[1..], k, v);
      KeysCons(ps);
      assert ps[0].key !in Keys(ps[1..]);
      forall i, j | 0 <= i < j < |r| ensures r[i].key != r[j].key {
        if i == 0 {
          assert r[j].key == r[1..][j - 1].key;
          assert r[j].key in Keys(r[1..]);
        } else {
          assert r[i].key == r[1..][i - 1].key;
          assert r[j].key == r[1..][j - 1].key;
        }
      }
    }
  }

  /** A measure that bounds how deep encoding can recurse: strings weigh
      nothing, each array item and object property weighs one plus its
      value, and a property key weighs its length (so the value JSON text
      parses to weighs less than the text). */
  function Size(h: Host): nat
  {
    match h
    case Arr(items) => ItemsSize(items)
    case Obj(ps) => PropsSize(ps)
    case _ => 0
  }

  function ItemsSize(items: seq<Host>): nat
  {
    if |items| == 0 then 0 else 1 + Size(items[0]) + ItemsSize(items[1..])
  }

  function PropsSize(ps: seq<Prop>): nat
  {
    if |ps| == 0 then 0 else 1 + |ps[0].key| + Size(ps[0].val) + PropsSize(ps[1..])
  }

  lemma {:induction false} GetSmaller(ps: seq<Prop>, k: string)
    requires Get(ps, k).Some?
    ensures Size(Get(ps, k).value) < PropsSize(ps)
  {
    if ps[0].key != k {
      GetSmaller(ps[1..], k);
    }
  }

  /** The two foreign calls the codec makes on composite map keys:
      `JSON.parse` (failing on malformed text) and `JSON.stringify`. */
  datatype Json = Json(parse: string -> Option<Host>, stringify: Host -> string)

  /** What real JSON text guarantees: the value it parses to is smaller
      than the text itself (every bracket, quote and separator costs a
      character). */
  ghost predicate ParseShrinks(j: Json)
  {
    forall text :: ShrinksAt(j, text)
  }

  ghost predicate ShrinksAt(j: Json, text: string)
  {
    j.parse(text).Some? ==> Size(j.parse(text).value) < |text|
  }

  type JsonCodec = j: Json | ParseShrinks(j)
    witness Json((text: string) => None, (h: Host) => "")

  function ParseKey(j: JsonCodec, text: string): (r: Result<Host>)
    ensures r.Success? <==> j.parse(text).Some?
    ensures r.Success? ==> r.value == j.parse(text).value && Size(r.value) < |text|
  {
    assert ShrinksAt(j, text);
    match j.parse(text)
    case Some(h) => Success(h)
    case None => Failure(InvalidJson(text))
  }

  /** `String(key)`: the property name a decoded map key becomes when it
      is used as an object key. Numbers are integers in this model. */
  function KeyText(h: Host): string
  {
    match h
    case Null => "null"
    case Bool(b) => if b then "true" else "false"
    case Num(n) => IntText(n)
    case Str(s) => s
    case Arr(items) => JoinText(items)
    case Obj(_) => "[object Object]"
  }

  /** `Array.prototype.join(",")`, where a null item contributes nothing. */
  function JoinText(items: seq<Host>): string
  {
    if |items| == 0 then ""
    else
      var first := if items[0].Null? then "" else KeyText(items[0]);
      if |items| == 1 then first else first + "," + JoinText(items[1..])
  }

  function IntText(n: int): (r: string)
    ensures |r| > 0
  {
    if n < 0 then "-" + NatText(-n) else NatText(n)
  }

  function NatText(n: nat): (r: string)
    ensures |r| > 0
    ensures forall i :: 0 <= i < |r| ==> '0' <= r[i] <= '9'
  {
    var d := ['0' + (n % 10) as char];
    if n < 10 then d else NatText(n / 10) + d
  }
}
